=== FILE: README.md ===
# Payment settlement orchestrator, modelled in Dafny

This project models the settlement core of a small payments service (FastAPI, two
PostgreSQL databases, two remote services). A payment request is recorded as
`processing`. The user is debited in the background, and the payment ends as
`success`, with a loyalty bonus, or as `failed`. The model covers:

- the error hierarchy that separates terminal errors (`NoRetryError`: unknown user,
  insufficient funds) from transient ones;
- the bounded retry executor with exponential backoff (`retry_operation`) and the
  unbounded one with a capped delay (`retry_until_success_service`);
- the user store (`get_user`, `update_user_balance`, `check_user_data`) and the payment
  store (`create_payment_record(_v2)`, `update_payment_status`, `get_payment_record`),
  as immutable maps with money in integer cents;
- the settlement saga `protected_process_transaction`: debit, then the "success"
  status write in its own transaction, then the user commit, with rollback on any
  error. It also covers `protected_update_payment_status`;
- the background finalizers `finalize_payment` (version 2, with deferred bonus
  reconciliation) and `process_payment` (version 1);
- the request handlers: the result classification of the version-2
  `create_payment_endpoint`, the version-1 `create_payment`, and `get_payment`. The
  two API versions share the same `get_payment` code.

Every store or service call is an oracle input:

- each attempt of a store call meets an injected fault (`Option<Error>`) or goes
  through. A fault rolls the attempt back and is re-raised as is;
- a remote service call is an `Attempt<Reply>`;
- the unbounded retry reads a finite observed sequence of outcomes. If none of them
  succeeded, it reports that it is still retrying;
- the five-second `asyncio.wait_for` deadline is a boolean `expired`;
- sleeps are recorded as a sequence of real delays rather than taken.

The modules follow the source files:

| module | file | models |
|---|---|---|
| `Errors` | errors.dfy | the exception hierarchy, `isinstance`, first-match `except` dispatch |
| `Services` | services.dfy | the reply dictionaries of the remote services |
| `Retry` | retry.dfy | both retry executors |
| `UserDb`, `PaymentDb` | user_db.dfy, payment_db.dfy | the two stores |
| `Protected` | protected.dfy | the protected status write and the settlement saga |
| `Background` | background.dfy | both finalizers |
| `Http`, `PaymentsV2`, `PaymentsV1` | http.dfy, api_v2.dfy, api_v1.dfy | the request handlers |
| `Scenarios` | scenarios.dfy | end-to-end version-2 runs on concrete stores |

The model follows the code as written, including these points where it does
not do what a reader might expect:

- Settlement (`protected_process_transaction`) never writes "failed" itself. A refused
  debit is re-raised, and the finalizer's `except` branch writes "failed"
  (app/utils/processes/background.py:55-59 and 111-115).
- The version-2 handler marks a refused payment with the literal status `"field"`
  (app/api/v2/payments.py:162 and 171), while the finalizers write `"failed"`.
- The finalizers notify only on success (app/utils/processes/background.py:40 and 85).
  Their failure paths send no notification, although the handler's docstring
  (app/api/v2/payments.py:77) announces a final notification on success or failure.
- A deferred bonus write that fails after the debit was committed marks the payment
  "failed" while the money stays debited (`Background.DeferredWriteFailureAfterDebit`).
  "success" is therefore not final on that path.

## Model

| member | source | states |
|---|---|---|
| Errors.Base | app/exception/custom_exception.py:1-26 | each class's direct base, one level closer to the root; only `Exception` has none |
| Errors.Dispatch | app/utils/processes/retry.py:29-33 | a raised error runs the first `except` clause that catches it: no earlier clause catches it, and when nothing catches it the error escapes |
| Errors.TerminalFamily | app/exception/custom_exception.py:7-26 | an error is terminal exactly when it is a `NoRetryError`, `UserNotFoundError` or `NotEnoughMoney`; timeouts, plain exceptions and `MyCustomError` are not |
| Errors.TerminalErrorsAreExceptions | app/exception/custom_exception.py:1-26 | both concrete terminal errors are `NoRetryError`s, `MyCustomError`s and `Exception`s |
| Errors.EveryErrorIsAnException | app/exception/custom_exception.py:1-4 | an `except Exception` clause catches every error of the model |
| Errors.TerminalErrorDefaults | app/exception/custom_exception.py:16-26 | `UserNotFoundError` defaults its message to "User not found"; both terminal errors default `code` to None |
| Errors.TerminalClauseFirst | app/utils/processes/retry.py:31-33 | with the `NoRetryError` clause first, terminal errors take it and all others take the generic clause |
| Errors.GenericClauseFirstHidesTerminal | app/exception/custom_exception.py:1-10 | a generic `Exception` clause listed first would catch every error, terminal ones included |
| Retry.ScheduleIsGeometric | app/utils/processes/retry.py:39-40 | the k-th sleep lasts `delay * backoff^k` |
| Retry.Attempts | app/utils/processes/retry.py:28-40 | from a given attempt on, the run makes between 1 and the remaining budget of calls; every call but the last failed transiently; the last call decides; an error is raised only when it is terminal or the budget is spent |
| Retry.RetryOperation | app/utils/processes/retry.py:8-40 | with `retries <= 0` nothing is called and None is returned; otherwise 1 to `retries` calls with one sleep between consecutive calls; the result or error is exactly the deciding call's; an error escapes only if it is terminal or the last allowed |
| Retry.SuccessAfterTransientFailures | app/utils/processes/retry.py:28-40 | n transient failures and then a success, with n < retries, return that result after n+1 calls and n sleeps |
| Retry.TerminalErrorStopsAtOnce | app/utils/processes/retry.py:31-32 | a `NoRetryError` on attempt n propagates unchanged after n+1 calls, with no further call or sleep |
| Retry.ExhaustionReraisesLastError | app/utils/processes/retry.py:33-38 | when every call in the budget fails transiently there are `retries` calls and `retries - 1` sleeps, and the last error is re-raised |
| Retry.DecidingCall | app/utils/processes/retry.py:28-38 | the first call that does not fail transiently decides the run's outcome, call count and sleeps |
| Retry.RetryLoop | app/utils/processes/retry.py:26-40 | the imperative `while` loop computes the same outcome, calls and sleeps as the functional definition |
| Retry.NextDelay | app/utils/processes/retry.py:80 | the next delay never exceeds `max_delay` |
| Retry.CappedSchedule | app/utils/processes/retry.py:79-80 | the first sleep is the initial delay, and each later sleep is `min(previous * backoff, max_delay)` |
| Retry.RetryUntilSuccess | app/utils/processes/retry.py:63-80 | it returns only a reply whose status is "success", namely the first such reply, after one sleep per earlier outcome; while there is none it keeps retrying with no attempt limit; the delays follow the capped schedule |
| Retry.FirstSuccessIsReturned | app/utils/processes/retry.py:63-68 | the first successful reply is the one returned, after exactly that many calls |
| Retry.FailureKindIrrelevant | app/utils/processes/retry.py:69-80 | a raised error and a non-success reply are handled the same way: swapping one for the other changes nothing |
| Retry.SleepsAreCapped | app/utils/processes/retry.py:79-80 | no sleep exceeds `max(initial delay, max_delay)` |
| UserDb.GetUser | app/db/user_db.py:60-65 | the user's row when the id is present, otherwise `UserNotFoundError` with the id in its message, and only then |
| UserDb.UpdateUserBalance | app/db/user_db.py:68-78 | the debit succeeds exactly when the user exists and `balance - amount >= 0`; it then sets the balance to old minus amount and changes no other row; otherwise it raises the terminal not-found or `NotEnoughMoney` error and nothing changes |
| UserDb.CheckUserData | app/db/user_db.py:81-86 | the check returns True exactly when the user exists and `balance >= amount`; otherwise it raises the not-found error or `NotEnoughMoney` naming the id; it has no store to return, so it changes nothing |
| UserDb.CheckAgreesWithDebit | app/db/user_db.py:73-85 | the check passes on a store exactly when the debit would succeed on it, and otherwise raises the same error |
| UserDb.DebitPreservesInvariants | app/db/user_db.py:72-77 | a debit keeps every balance non-negative and every row under its own id |
| UserDb.LookupDecidesDebitAndCheck | app/db/user_db.py:60-86 | the debit and the check both start with `get_user`: a missing user fails both with the lookup's error, and for a present user the looked-up balance decides each |
| PaymentDb.Insert | app/db/payment_db.py:28-30 | a new row gets an id that no row holds yet and carries bonus 0.00 |
| PaymentDb.CreatePaymentRecord | app/db/payment_db.py:58-106 | an attempt without a fault adds a fresh row with the given user, amount, currency, status and message and bonus 0.00, leaving every other row as it was; a fault re-raises that same error |
| PaymentDb.UpdatePaymentStatus | app/db/payment_db.py:109-125 | the update overwrites only status, message and bonus; id, user, amount and currency keep their values; no other row changes; a missing id is a silent no-op |
| PaymentDb.UpdateAttempt | app/db/payment_db.py:112-125 | an update attempt succeeds exactly when it meets no fault, and a fault is re-raised as is; a staged update reads back the new status, message and bonus on that row when it exists, leaves every other row and the next id as they were, and creates no row for a missing id |
| PaymentDb.GetPaymentRecord | app/db/payment_db.py:128-132 | the lookup returns None for a missing id and the stored row otherwise |
| PaymentDb.ReadAfterUpdate | app/db/payment_db.py:109-132 | a read after an update sees the new status, message and bonus on that row and the old contents elsewhere |
| PaymentDb.UpdateIsIdempotent | app/db/payment_db.py:109-122 | writing the same status twice equals writing it once |
| PaymentDb.LastUpdateWins | app/db/payment_db.py:117-120 | of two updates to one row, the later overwrites the earlier completely |
| PaymentDb.WritesKeepBonusOnSuccess | app/db/payment_db.py:117-120 | a status write that is "success" or carries bonus 0 keeps non-zero bonuses confined to successful payments |
| PaymentDb.InsertKeepsBonusOnSuccess | app/db/payment_db.py:67-74 | inserting a row with bonus 0.00 keeps that invariant |
| Protected.ProtectedUpdatePaymentStatus | app/utils/processes/protected.py:12-38 | on success the store holds the given status, message and bonus (0 by default), the commit met no fault and the update faults cleared within three attempts; on failure the store is unchanged and the error raised is one of the update faults in the three attempts or the commit fault |
| Protected.StatusWriteGoesThrough | app/utils/processes/protected.py:26-34 | when the update faults clear within three attempts and the commit succeeds, the write is published |
| Protected.StatusWriteExhausted | app/utils/processes/protected.py:31-38 | three transient update failures leave the store unchanged and re-raise the third error |
| Protected.StatusCommitFaultFails | app/utils/processes/protected.py:31-38 | update attempts that go through are undone by a commit fault: the store is unchanged and the commit's error is re-raised |
| Protected.StatusTerminalFaultFails | app/utils/processes/protected.py:31-38 | a terminal update fault stops the status write at once: the store is unchanged and that error is re-raised |
| Protected.Reraise | app/utils/processes/protected.py:64-71 | `UserNotFoundError` and `NotEnoughMoney` are re-raised as they are; any other error becomes a new generic exception whose message is the prefix followed by the error's text |
| Protected.TerminalReraiseClause | app/utils/processes/protected.py:64-68 | the `(UserNotFoundError, NotEnoughMoney)` clause catches exactly those two classes, so a bare `NoRetryError` falls to the generic clause |
| Protected.ProtectedProcessTransaction | app/utils/processes/protected.py:41-71 | whenever the retried debit raises (refused, a terminal store error, or five retryable faults), both stores are unchanged and `Reraise` of that error is raised, with no status write; on success the retried debit returned the debited users, the user store holds them and the payment holds "success" with exactly the given bonus; on every failure the balance is unchanged; the payment store changes only after an accepted debit; settlement never writes "failed" |
| Protected.DebitOrigin | app/utils/processes/protected.py:55-58 | a debit run that returns hands back the debited store; the five-attempt budget never returns None |
| Protected.RefusedDebitReraised | app/utils/processes/protected.py:64-67 | a refused debit re-raises its terminal error unchanged and writes no payment status |
| Protected.ExhaustedDebitWrapped | app/utils/processes/protected.py:68-71 | five transient debit failures roll back and raise a generic exception that wraps the last fault |
| Protected.AcceptedDebitOrdering | app/utils/processes/protected.py:55-71 | after an accepted debit: a failed status write rolls the debit back; a failed user commit leaves "success" on the payment with the balance unchanged; otherwise both stores commit |
| Protected.SettlementOutcomeShape | app/utils/processes/protected.py:64-71 | settlement raises only the two terminal debit errors, or a generic exception with the wrapping prefix; no balance ever goes negative |
| Protected.ReraiseShape | app/utils/processes/protected.py:64-71 | a re-raised error is one of the two terminal classes, or a generic exception carrying the prefix |
| Background.MarkFailed | app/utils/processes/background.py:111-115 | the `except` branch sends no notification and attempts the "failed" write with the error's text and bonus 0.00; the task finishes exactly when that write succeeds, with the payment marked "failed", and otherwise ends with the write's own error and the store unchanged |
| Background.MarkFailedGoesThrough | app/utils/processes/background.py:111-115 | a "failed" write whose faults clear within three attempts and whose commit goes through finishes the task with the payment "failed", bonus 0.00 and the error's text |
| Background.FinalizePayment | app/utils/processes/background.py:62-115 | "success" is notified exactly when settlement succeeded, and nothing when it failed; on failure the balance is unchanged; the task waits for loyalty only after a zero estimate, with the settlement's stores |
| Background.FinalizeKeepsGivenBonus | app/utils/processes/background.py:82-91 | with a non-zero estimate, a successful settlement is final, with exactly the bonus passed in |
| Background.DeferredBonusReconciled | app/utils/processes/background.py:91-109 | after a zero estimate, the first successful loyalty reply's bonus is written with status "success" |
| Background.DeferredBonusPending | app/utils/processes/background.py:91-101 | while no loyalty reply has succeeded the task keeps waiting, and the payment keeps "success" with bonus 0.00 |
| Background.DeferredOnlyAfterZeroEstimate | app/utils/processes/background.py:91 | after a non-zero estimate or a failed settlement, the loyalty calls and the bonus write have no effect |
| Background.NotificationNeverMatters | app/utils/processes/background.py:84-89 | the notification's reply or error never changes what either finalizer does |
| Background.FinalizeFailurePath | app/utils/processes/background.py:111-115 | a failed settlement leaves the balance alone and notifies no one; the payment is marked "failed" with bonus 0.00 if the task finishes, and unchanged if the "failed" write crashes it |
| Background.FinalizeMarksFailed | app/utils/processes/background.py:111-115 | with a "failed" write that goes through, a failed settlement always finishes with the payment "failed", the balance untouched and no notification |
| Background.DeferredWriteFailureAfterDebit | app/utils/processes/background.py:103-115 | a deferred bonus write that fails after the debit was committed leaves the balance debited, and the payment "failed" with bonus 0.00 whenever the task finishes |
| Background.DeferredFailureMarksFailed | app/utils/processes/background.py:103-115 | with a "failed" write that goes through, a failed deferred bonus write always finishes with the payment "failed" and bonus 0.00, the balance debited and "success" already notified |
| Background.ProcessPayment | app/utils/processes/background.py:12-59 | a successful settlement with bonus 0.00 is final and notified; a failed one leaves the balance unchanged and notifies no one; the task never waits for loyalty |
| Background.ProcessPaymentDropsLoyalty | app/utils/processes/background.py:46-54 | version 1 never records the loyalty result: the payment keeps bonus 0.00, whatever the loyalty service answers |
| Background.ProcessFailurePath | app/utils/processes/background.py:55-59 | a failed version-1 settlement notifies no one; the payment is marked "failed" with bonus 0.00 if the task finishes, and unchanged if the "failed" write crashes it |
| Background.ProcessMarksFailed | app/utils/processes/background.py:55-59 | with a "failed" write that goes through, a failed version-1 settlement always finishes with the payment "failed", bonus 0.00, and no notification |
| Background.MarkFailedKeepsBonusOnSuccess | app/utils/processes/background.py:111-115 | the "failed" write keeps non-zero bonuses confined to successful payments |
| Background.SettlementKeepsInvariants | app/utils/processes/protected.py:41-71 | settlement keeps balances non-negative and non-zero bonuses on successful payments only |
| Background.FinalizeKeepsInvariants | app/utils/processes/background.py:62-115 | `finalize_payment` keeps both invariants |
| Background.ProcessKeepsInvariants | app/utils/processes/background.py:12-59 | `process_payment` keeps both invariants |
| Http.CreatedRow | app/db/payment_db.py:58-106 | a creation run that returns yields a fresh "processing" row for the request |
| Http.GetPayment | app/api/v2/payments.py:247-274 | deadline expiry answers 408; a found payment is copied field by field; 404 only for a missing id; whenever the lookup retry raises, a timeout answers 408 and any other error, terminal or not, escapes. Version 1 (app/api/v1/payments.py:137-164) is the same code |
| Http.LookupRecovers | app/api/v1/payments.py:142-159 | when the store faults clear within three attempts, the answer is the row or 404 |
| Http.LookupExhausted | app/api/v1/payments.py:142-164 | three failed lookups answer from the last error: 408 for a timeout, otherwise the error escapes |
| Http.LookupTerminalEscapes | app/api/v1/payments.py:142-164 | a terminal store error on a lookup stops the retries and escapes the handler at once |
| PaymentsV2.EstimatedBonus | app/api/v2/payments.py:177-181 | given the loyalty service's answer to each call, the estimate is the `bonus` key (0 when absent) of the first answer within three calls that follows only retryable failures, whatever its status says; 0 when there is no such answer |
| PaymentsV2.LoyaltyDecides | app/utils/processes/retry.py:28-40 | the loyalty retry returns the first answer within budget that follows only retryable failures, and raises when there is none |
| PaymentsV2.Refusal | app/api/v2/payments.py:156-175 | a terminal check error gives 404 with a fixed detail and the error in the row message; any other gives 400 with the error in both |
| PaymentsV2.CreatePaymentEndpoint | app/api/v2/payments.py:149-203 | users never change; a task is scheduled exactly when the payment is accepted; acceptance answers "processing" with a fresh id whose row holds the request and bonus 0.00, schedules `finalize_payment` with that id and the request, and happens only for a user who could pay |
| PaymentsV2.CreationRecovers | app/api/v2/payments.py:81-95 | creation faults clearing within five attempts yield the inserted row |
| PaymentsV2.CreationFailureDecidesFirst | app/api/v2/payments.py:149-153 | whenever the creation retry raises, for a terminal error or a spent budget, the answer is 400 with that error, nothing is written and nothing is scheduled, whatever the other results were |
| PaymentsV2.CreationExhaustedRejected | app/api/v2/payments.py:149-153 | five retryable creation faults answer 400 with the last fault |
| PaymentsV2.TerminalCreationRejected | app/api/v2/payments.py:149-153 | a terminal creation fault answers 400 with that fault at once |
| PaymentsV2.AcceptedExactlyWhenBothPass | app/api/v2/payments.py:149-189 | the payment is accepted if and only if the creation returned a row and the user check returned without raising |
| PaymentsV2.RefusedUserMarksRow | app/api/v2/payments.py:156-167 | a user the check refuses leaves the new row with status "field" and the error in its message, and gets 404 |
| PaymentsV2.ExhaustedCheckMarksRow | app/api/v2/payments.py:168-175 | a check that only meets store faults marks the row "field" and answers 400 with the last fault |
| PaymentsV2.RefusalWriteEscapes | app/api/v2/payments.py:156-175 | when the check raised and the "field" write then fails for any reason, update faults or commit, that write's error escapes unanswered, the stores are as right after the insert, the new row stays "processing" and nothing is scheduled |
| PaymentsV2.RefusalWriteExhaustedEscapes | app/api/v2/payments.py:156-175 | three retryable "field" update faults: the third escapes the handler |
| PaymentsV2.RefusalCommitEscapes | app/api/v2/payments.py:156-175 | a "field" write whose commit fails: the commit's error escapes the handler |
| PaymentsV2.PayableUserAccepted | app/api/v2/payments.py:177-203 | a user who can pay gets "processing" with the new id, and `finalize_payment` is scheduled with the loyalty estimate |
| PaymentsV2.LoyaltyReplyTakenAsIs | app/api/v2/payments.py:180-181 | the estimate is the first loyalty reply's bonus, whatever its status says |
| PaymentsV2.LoyaltyBudgetExhausted | app/api/v2/payments.py:115-119 | three failed loyalty calls are the whole budget, and the estimate is 0 |
| PaymentsV2.NotificationIgnored | app/api/v2/payments.py:183 | the notification's outcome never affects the answer, the stores or the task |
| PaymentsV2.EndpointKeepsBonusOnSuccess | app/api/v2/payments.py:149-175 | the handler keeps non-zero bonuses confined to successful payments |
| PaymentsV1.Classify | app/api/v1/payments.py:78-81 | a timeout answers 503, whoever raised it; any other error answers 400 with the error in the detail |
| PaymentsV1.CreatePayment | app/api/v1/payments.py:56-93 | a rejection leaves both stores unchanged, answers 400 or 503, and schedules nothing; an expired deadline answers 503; acceptance adds exactly one fresh "processing" row, answers with its id and schedules `process_payment` with the request |
| PaymentsV1.CreateRecovers | app/api/v1/payments.py:69-93 | when the insert faults clear within five attempts and the commit succeeds, the payment is accepted under the next id |
| PaymentsV1.CreateExhausted | app/api/v1/payments.py:69-81 | five failed inserts answer 503 for a timeout and 400 otherwise, based on the last error |
| PaymentsV1.TerminalCreateErrorRejected | app/api/v1/payments.py:69-81 | a terminal store error stops the retries and answers 400 |
| PaymentsV1.CreateKeepsInvariants | app/api/v1/payments.py:56-76 | the handler never touches users and keeps bonuses confined to successful payments |
| Scenarios.PayableUserSettles | app/utils/processes/background.py:62-89 | a balance of 1000.00 paying 100.00 with a 10.00 estimate ends at 900.00, and the payment is "success" with bonus 10.00 |
| Scenarios.GivenBonusSettles | app/utils/processes/background.py:81-91 | finalizing the accepted payment with a 10.00 estimate leaves 900.00 on the balance, "success" with bonus 10.00 on the payment, one "success" notification and no loyalty wait |
| Scenarios.PoorUserRefused | app/api/v2/payments.py:156-167 | a balance of 50.00 asking for 100.00 gets 404, the row is "field" and the balance stays 50.00 |
| Scenarios.LoyaltyRecoversInBudget | app/api/v2/payments.py:115-119 | a loyalty service that fails twice and then answers is within the three-call budget |
| Scenarios.LoyaltyBudgetSpent | app/api/v2/payments.py:115-119 | three failures leave an estimate of 0 although the fourth call would have answered |
| Scenarios.AcceptedPaymentSettles | app/utils/processes/protected.py:55-62 | settling the accepted 100.00 payment with a 0.00 estimate leaves 900.00 and "success" with bonus 0.00 |
| Scenarios.DeferredBonusArrives | app/utils/processes/background.py:91-109 | after a zero estimate the payment settles at "success" and later carries the bonus of the first successful loyalty reply, skipping a non-success reply |

## Left out

- asyncio concurrency: `gather(..., return_exceptions=True)` is a tuple of independent outcomes. A detached `create_task` is either awaited (`finalize_payment`) or dropped (`process_payment`). Interleavings and two concurrent finalizations of one payment are not modelled.
- Real time: the `wait_for` deadline is a boolean and sleeps are recorded delays. Python floats are modelled as exact reals, without IEEE rounding.
- SQLAlchemy sessions, engines, `flush` and `commit`: a transaction is a snapshot that a commit publishes and a rollback discards. A failed flush that leaves in-memory ORM objects partly mutated is not modelled.
- Autoincrement ids: an id consumed by a rolled-back insert is not skipped. The model only relies on new ids being fresh.
- Money: `DECIMAL(10,2)` is integer cents, with no precision overflow or rounding. `Decimal(reply.get("bonus", 0))` takes the bonus as cents and does not parse strings.
- The remote services' internals, their httpx wrappers, configuration, logging, startup wiring, `simulate_db_delay` and `init_db` are left out. A service call is an oracle outcome.
- Request and response schemas: only the positive-amount constraint is kept, as `Http.ValidRequest`. FastAPI's `HTTPException` is a `Rejected(code, detail)` answer. An exception that escapes a handler is `Unhandled(error)`, which the framework answers with 500.
- PaymentsV2.CreatePaymentEndpoint: the outer `except Exception` that answers 503 around the fan-out is not modelled. `gather(..., return_exceptions=True)` hands back every `Exception` as a result, so that branch never runs for the errors of this model.
- PaymentsV2.CreatePaymentEndpoint: the "processing" notification it sends on every request, accepted or not (app/api/v2/payments.py:122-135), is not recorded in the result. Its outcome is only logged and changes nothing the handler returns or stores (`PaymentsV2.NotificationIgnored`). The finalizers' notifications are recorded, because whether they are sent depends on how settlement ended.
- Retry.RetryUntilSuccess: it reads a finite prefix of the loyalty service's outcomes and reports `StillRetrying` when none succeeded, instead of running forever.
- Background.FinalizePayment: the unbounded loyalty wait is modelled through that finite prefix, so a finalizer that never gets a successful reply ends in `AwaitingLoyalty`.
- Background.ProcessPayment: the detached loyalty task it starts is not modelled, because its result is never read.
- A store fault is an arbitrary error, including a terminal one, so the model also covers a store that raised a `NoRetryError` itself.

=== FILE: api_v1.dfy ===
/** Version 1 of the payments API: `create_payment` inserts the
    "processing" row in the handler's own transaction, under retry and a
    five-second deadline, commits it, answers, and schedules
    `process_payment`. */
module PaymentsV1 {
  import opened Basics
  import opened Errors
  import opened Retry
  import opened UserDb
  import opened PaymentDb
  import opened Protected
  import opened Http

  /** The store faults of each insert attempt, whether the deadline expires,
      and the fault of the final commit. */
  datatype World = World(create: nat -> Option<Error>, expired: bool, commit: Option<Error>)

  const CreateRetries := 5
  const Delay := 0.2
  const UnavailableDetail := "Сервис временно недоступен"
  const UnknownErrorPrefix := "Неизвестная ошибка: "

  /** The two `except` clauses around the transaction: a timeout (whoever
      raised it) answers 503, any other error 400 with the error in the detail. */
  function Classify(e: Error): (r: Response)
    ensures IsInstance(e, TimeoutErrorType) ==> r == Rejected(503, UnavailableDetail)
    ensures !IsInstance(e, TimeoutErrorType) ==> r == Rejected(400, UnknownErrorPrefix + Str(e))
  {
    match Dispatch(e, [{TimeoutErrorType}, {ExceptionType}])
    case Some(0) => Rejected(503, UnavailableDetail)
    case _ => Rejected(400, UnknownErrorPrefix + Str(e))
  }

  /** `create_payment`. Any error, or the deadline, rolls the transaction
      back, so a rejected request leaves both stores as they were; an
      accepted one adds exactly the new "processing" row and schedules
      `process_payment` for it. */
  function CreatePayment(s: Stores, req: Request, w: World): (r: Handled)
    requires ValidRequest(req)
    ensures r.task.Some? <==> r.response.Accepted?
    ensures r.response.Rejected? <==> !r.response.Accepted?
    ensures r.response.Rejected? ==> r.stores == s && r.response.code in {400, 503}
    ensures w.expired ==> r == Handled(s, Rejected(503, UnavailableDetail), None)
    ensures r.response.Accepted? ==>
              && !w.expired && w.commit.None?
              && r.stores.users == s.users
              && r.response.status == ProcessingStatus
              && r.response.message == ProcessingMessage
              && r.response.paymentId !in s.payments.rows
              && r.stores.payments.rows
                 == s.payments.rows[r.response.paymentId :=
                      Payment(r.response.paymentId, req.userId, req.amount, req.currency, ProcessingStatus, 0, ProcessingMessage)]
              && r.task == Some(Process(r.response.paymentId, req.userId, req.amount, req.currency))
  {
    if w.expired then Handled(s, Rejected(503, UnavailableDetail), None)
    else
      var created := RetryOperation(CreateCalls(s.payments, req, w.create), CreateRetries, Delay, Backoff).outcome;
      if created.Raised? then Handled(s, Classify(created.error), None)
      else if w.commit.Some? then Handled(s, Classify(w.commit.value), None)
      else
        var c := created.value;
        CreatedRow(s.payments, req, w.create, CreateRetries, Delay, Backoff);
        Handled(Stores(s.users, c.store), Accepted(c.paymentId, ProcessingStatus, ProcessingMessage),
                Some(Process(c.paymentId, req.userId, req.amount, req.currency)))
  }

  /** Once the insert's faults clear within the budget and the commit goes
      through, the payment is accepted under the next free id. */
  lemma CreateRecovers(s: Stores, req: Request, w: World, n: nat)
    requires ValidRequest(req)
    requires !w.expired && w.commit.None?
    requires n < CreateRetries && ClearsAt(w.create, n)
    ensures var c := Insert(s.payments, req.userId, req.amount, req.currency, ProcessingStatus, ProcessingMessage);
            CreatePayment(s, req, w)
            == Handled(Stores(s.users, c.store), Accepted(c.paymentId, ProcessingStatus, ProcessingMessage),
                       Some(Process(c.paymentId, req.userId, req.amount, req.currency)))
  {
    var calls := CreateCalls(s.payments, req, w.create);
    assert forall i :: 0 <= i < n ==> IsTransient(calls(i));
    SuccessAfterTransientFailures(calls, CreateRetries, Delay, Backoff, n);
  }

  /** Five failed inserts answer from the last error: 503 for a timeout
      raised by the store, 400 with the error for anything else. */
  lemma CreateExhausted(s: Stores, req: Request, w: World)
    requires ValidRequest(req)
    requires !w.expired
    requires AllTransient(w.create, CreateRetries)
    ensures var e := w.create(CreateRetries - 1).value;
            CreatePayment(s, req, w)
            == Handled(s, if IsInstance(e, TimeoutErrorType) then Rejected(503, UnavailableDetail)
                          else Rejected(400, UnknownErrorPrefix + Str(e)), None)
  {
    var calls := CreateCalls(s.payments, req, w.create);
    assert forall i :: 0 <= i < CreateRetries ==> IsTransient(calls(i));
    ExhaustionReraisesLastError(calls, CreateRetries, Delay, Backoff);
  }

  /** A terminal store error stops the retries at once and answers 400. */
  lemma TerminalCreateErrorRejected(s: Stores, req: Request, w: World, n: nat)
    requires ValidRequest(req)
    requires !w.expired
    requires n < CreateRetries && AllTransient(w.create, n)
    requires w.create(n).Some? && IsTerminal(w.create(n).value)
    ensures CreatePayment(s, req, w) == Handled(s, Rejected(400, UnknownErrorPrefix + Str(w.create(n).value)), None)
  {
    var calls := CreateCalls(s.payments, req, w.create);
    assert forall i :: 0 <= i < n ==> IsTransient(calls(i));
    assert calls(n) == Fail(w.create(n).value);
    TerminalErrorStopsAtOnce(calls, CreateRetries, Delay, Backoff, n);
    TerminalFamily(w.create(n).value);
  }

  /** The handler never touches the user store, and a payment it adds
      carries a zero bonus. */
  lemma CreateKeepsInvariants(s: Stores, req: Request, w: World)
    requires ValidRequest(req)
    requires Solvent(s.users) && BonusOnlyOnSuccess(s.payments)
    ensures var r := CreatePayment(s, req, w);
            r.stores.users == s.users && BonusOnlyOnSuccess(r.stores.payments)
  {
    InsertKeepsBonusOnSuccess(s.payments, req.userId, req.amount, req.currency, ProcessingStatus, ProcessingMessage);
  }
}

=== FILE: api_v2.dfy ===
/** Version 2 of the payments API: `create_payment_endpoint` runs the record
    creation, the user check, the loyalty estimate and the "processing"
    notification side by side, then classifies their results in a fixed
    order before it answers and schedules `finalize_payment`. */
module PaymentsV2 {
  import opened Basics
  import opened Errors
  import opened Services
  import opened Retry
  import opened UserDb
  import opened PaymentDb
  import opened Protected
  import opened Http

  /** Everything outside the stores that the handler meets: the store
      faults of each creation and check attempt, the loyalty service's
      replies, the notification's outcome, and the faults of the status
      write on a refused check. */
  datatype World = World(
    create: nat -> Option<Error>,
    check: nat -> Option<Error>,
    loyalty: nat -> Attempt<Reply>,
    notify: Attempt<Reply>,
    statusWrite: StatusFaults)

  const CreateRetries := 5
  const CheckRetries := 5
  const LoyaltyRetries := 3
  const Delay := 0.2

  /** The status a refused check leaves on the row, as the handler spells it. */
  const RefusedStatus := "field"
  const CreateErrorPrefix := "Ошибка создания платежа: "
  const UserProblemDetail := "Пользователь не найден или недостаточно средств"
  const CheckErrorPrefix := "Ошибка проверки пользователя: "

  function CheckCalls(users: Users, req: Request, faults: nat -> Option<Error>): nat -> Attempt<bool>
  {
    (i: nat) => Faulted(faults(i), CheckUserData(users, req.userId, req.amount))
  }

  /** The first `n` loyalty calls failed with errors worth retrying. */
  predicate FailedTransiently(loyalty: nat -> Attempt<Reply>, n: nat)
  {
    forall i :: 0 <= i < n ==> IsTransient(loyalty(i))
  }

  /** The bonus estimate handed to `finalize_payment`, from the loyalty
      service's answers to successive calls: the `bonus` key (0 when absent)
      of the first answer within the three-call budget that follows only
      retryable failures, whatever that answer's status says; 0 when no
      such answer exists, because the calls kept failing or one failed
      for good. */
  function EstimatedBonus(loyalty: nat -> Attempt<Reply>): (b: Cents)
    ensures forall n :: 0 <= n < LoyaltyRetries && FailedTransiently(loyalty, n) && loyalty(n).Ok? ==>
              b == loyalty(n).value.bonus.GetOr(0)
    ensures (forall n :: 0 <= n < LoyaltyRetries && FailedTransiently(loyalty, n) ==> loyalty(n).Fail?) ==> b == 0
  {
    LoyaltyDecides(loyalty);
    match RetryOperation(loyalty, LoyaltyRetries, Delay, Backoff).outcome
    case Returned(reply) => BonusOf(reply)
    case _ => 0
  }

  /** The loyalty retry returns exactly the first answer that follows only
      retryable failures within the budget, and raises when there is none. */
  lemma LoyaltyDecides(loyalty: nat -> Attempt<Reply>)
    ensures var o := RetryOperation(loyalty, LoyaltyRetries, Delay, Backoff).outcome;
            && (forall n :: 0 <= n < LoyaltyRetries && FailedTransiently(loyalty, n) && loyalty(n).Ok? ==>
                  o == Returned(loyalty(n).value))
            && ((forall n :: 0 <= n < LoyaltyRetries && FailedTransiently(loyalty, n) ==> loyalty(n).Fail?) ==> !o.Returned?)
  {
    forall n | 0 <= n < LoyaltyRetries && FailedTransiently(loyalty, n) && loyalty(n).Ok?
      ensures RetryOperation(loyalty, LoyaltyRetries, Delay, Backoff).outcome == Returned(loyalty(n).value)
    {
      SuccessAfterTransientFailures(loyalty, LoyaltyRetries, Delay, Backoff, n);
    }
    var t := RetryOperation(loyalty, LoyaltyRetries, Delay, Backoff);
    assert FailedTransiently(loyalty, t.calls - 1);
  }

  /** The row message and the (code, detail) of a refused check: a terminal
      error answers 404 with a fixed detail, any other error 400 with the
      error in the detail. */
  function Refusal(e: Error): (r: (string, int, string))
    ensures IsTerminal(e) ==> r == (UserProblemDetail + " " + Str(e), 404, UserProblemDetail)
    ensures !IsTerminal(e) ==> r == (CheckErrorPrefix + Str(e), 400, CheckErrorPrefix + Str(e))
  {
    match Dispatch(e, [{NoRetryErrorType}, {ExceptionType}])
    case Some(0) => (UserProblemDetail + " " + Str(e), 404, UserProblemDetail)
    case _ => (CheckErrorPrefix + Str(e), 400, CheckErrorPrefix + Str(e))
  }

  /** `create_payment_endpoint`. The creation error decides first (400,
      nothing written); then a raised check marks the new row "field" and
      answers 404 or 400 (or lets the status write's error escape); only
      then does the handler accept, with the loyalty estimate as the bonus.
      The users are never touched here. */
  function CreatePaymentEndpoint(s: Stores, req: Request, w: World): (r: Handled)
    requires ValidRequest(req)
    ensures r.stores.users == s.users
    ensures r.task.Some? <==> r.response.Accepted?
    ensures r.response.Rejected? || r.response.Unhandled? || r.response.Accepted?
    ensures r.response.Accepted? ==>
              && r.response.status == ProcessingStatus
              && r.response.message == ProcessingMessage
              && r.response.paymentId !in s.payments.rows
              && GetPaymentRecord(r.stores.payments, r.response.paymentId)
                 == Some(Payment(r.response.paymentId, req.userId, req.amount, req.currency, ProcessingStatus, 0, ProcessingMessage))
              && r.task.value.Finalize?
              && r.task.value.paymentId == r.response.paymentId
              && r.task.value.userId == req.userId
              && r.task.value.amount == req.amount
              && r.task.value.currency == req.currency
    ensures r.response.Accepted? ==> CheckUserData(s.users, req.userId, req.amount).Ok?
  {
    var created := RetryOperation(CreateCalls(s.payments, req, w.create), CreateRetries, Delay, Backoff).outcome;
    var checked := RetryOperation(CheckCalls(s.users, req, w.check), CheckRetries, Delay, Backoff);
    if created.Raised? then
      Handled(s, Rejected(400, CreateErrorPrefix + Str(created.error)), None)
    else
      var c := created.value;
      CreatedRow(s.payments, req, w.create, CreateRetries, Delay, Backoff);
      if checked.outcome.Raised? then
        var (message, code, detail) := Refusal(checked.outcome.error);
        var write := ProtectedUpdatePaymentStatus(c.store, c.paymentId, RefusedStatus, message, w.statusWrite);
        var after := Stores(s.users, write.state);
        if write.out.Fail? then Handled(after, Unhandled(write.out.error), None)
        else Handled(after, Rejected(code, detail), None)
      else
        assert CheckCalls(s.users, req, w.check)(checked.calls - 1)
            == Faulted(w.check(checked.calls - 1), CheckUserData(s.users, req.userId, req.amount));
        Handled(Stores(s.users, c.store), Accepted(c.paymentId, ProcessingStatus, ProcessingMessage),
                Some(Finalize(c.paymentId, req.userId, req.amount, req.currency, EstimatedBonus(w.loyalty))))
  }

  /** The row the handler inserts for `req`. */
  function NewRow(s: Stores, req: Request): Created
  {
    Insert(s.payments, req.userId, req.amount, req.currency, ProcessingStatus, ProcessingMessage)
  }

  lemma CreationRecovers(s: Stores, req: Request, w: World, n: nat)
    requires n < CreateRetries && ClearsAt(w.create, n)
    ensures RetryOperation(CreateCalls(s.payments, req, w.create), CreateRetries, Delay, Backoff).outcome == Returned(NewRow(s, req))
  {
    var calls := CreateCalls(s.payments, req, w.create);
    assert forall i :: 0 <= i < n ==> IsTransient(calls(i));
    SuccessAfterTransientFailures(calls, CreateRetries, Delay, Backoff, n);
  }

  /** A creation that raises, whether it met a terminal error or spent its
      five attempts, answers 400 with that error, writes nothing and
      schedules nothing, whatever the user check, the loyalty service and
      the notification came back with. */
  lemma CreationFailureDecidesFirst(s: Stores, req: Request, w: World)
    requires ValidRequest(req)
    requires RetryOperation(CreateCalls(s.payments, req, w.create), CreateRetries, Delay, Backoff).outcome.Raised?
    ensures var e := RetryOperation(CreateCalls(s.payments, req, w.create), CreateRetries, Delay, Backoff).outcome.error;
            CreatePaymentEndpoint(s, req, w) == Handled(s, Rejected(400, CreateErrorPrefix + Str(e)), None)
  {
  }

  /** Five creation attempts that all meet retryable faults answer 400
      with the last fault. */
  lemma CreationExhaustedRejected(s: Stores, req: Request, w: World)
    requires ValidRequest(req)
    requires AllTransient(w.create, CreateRetries)
    ensures CreatePaymentEndpoint(s, req, w)
         == Handled(s, Rejected(400, CreateErrorPrefix + Str(w.create(CreateRetries - 1).value)), None)
  {
    var calls := CreateCalls(s.payments, req, w.create);
    assert forall i :: 0 <= i < CreateRetries ==> IsTransient(calls(i));
    ExhaustionReraisesLastError(calls, CreateRetries, Delay, Backoff);
    CreationFailureDecidesFirst(s, req, w);
  }

  /** A terminal store error on a creation attempt stops the retries and
      answers 400 with that error at once. */
  lemma TerminalCreationRejected(s: Stores, req: Request, w: World, n: nat)
    requires ValidRequest(req)
    requires n < CreateRetries && AllTransient(w.create, n)
    requires w.create(n).Some? && IsTerminal(w.create(n).value)
    ensures CreatePaymentEndpoint(s, req, w)
         == Handled(s, Rejected(400, CreateErrorPrefix + Str(w.create(n).value)), None)
  {
    var calls := CreateCalls(s.payments, req, w.create);
    assert forall i :: 0 <= i < n ==> IsTransient(calls(i));
    assert calls(n) == Fail(w.create(n).value);
    TerminalErrorStopsAtOnce(calls, CreateRetries, Delay, Backoff, n);
    CreationFailureDecidesFirst(s, req, w);
  }

  /** The handler accepts exactly when the creation returned a row and the
      user check returned without raising; anything else is refused or
      escapes. */
  lemma AcceptedExactlyWhenBothPass(s: Stores, req: Request, w: World)
    requires ValidRequest(req)
    ensures CreatePaymentEndpoint(s, req, w).response.Accepted?
        <==> && RetryOperation(CreateCalls(s.payments, req, w.create), CreateRetries, Delay, Backoff).outcome.Returned?
             && RetryOperation(CheckCalls(s.users, req, w.check), CheckRetries, Delay, Backoff).outcome.Returned?
  {
  }

  /** When the check raised and the "field" write then fails, for any
      reason (its update faults, or its commit), that write's error escapes
      the handler unanswered, the new row stays "processing" and nothing is
      scheduled. */
  lemma RefusalWriteEscapes(s: Stores, req: Request, w: World, n: nat)
    requires ValidRequest(req)
    requires n < CreateRetries && ClearsAt(w.create, n)
    requires RetryOperation(CheckCalls(s.users, req, w.check), CheckRetries, Delay, Backoff).outcome.Raised?
    requires var e := RetryOperation(CheckCalls(s.users, req, w.check), CheckRetries, Delay, Backoff).outcome.error;
             ProtectedUpdatePaymentStatus(NewRow(s, req).store, NewRow(s, req).paymentId, RefusedStatus, Refusal(e).0, w.statusWrite).out.Fail?
    ensures var e := RetryOperation(CheckCalls(s.users, req, w.check), CheckRetries, Delay, Backoff).outcome.error;
            var r := CreatePaymentEndpoint(s, req, w);
            var c := NewRow(s, req);
            && r.response == Unhandled(ProtectedUpdatePaymentStatus(c.store, c.paymentId, RefusedStatus, Refusal(e).0, w.statusWrite).out.error)
            && r.task == None
            && r.stores == Stores(s.users, c.store)
            && GetPaymentRecord(r.stores.payments, c.paymentId)
               == Some(Payment(c.paymentId, req.userId, req.amount, req.currency, ProcessingStatus, 0, ProcessingMessage))
  {
    CreationRecovers(s, req, w, n);
    CreatedRow(s.payments, req, w.create, CreateRetries, Delay, Backoff);
  }

  /** Three "field" update attempts that all meet retryable faults: the
      third fault escapes the handler. */
  lemma RefusalWriteExhaustedEscapes(s: Stores, req: Request, w: World, n: nat)
    requires ValidRequest(req)
    requires n < CreateRetries && ClearsAt(w.create, n)
    requires RetryOperation(CheckCalls(s.users, req, w.check), CheckRetries, Delay, Backoff).outcome.Raised?
    requires AllTransient(w.statusWrite.update, StatusRetries)
    ensures CreatePaymentEndpoint(s, req, w).response == Unhandled(w.statusWrite.update(StatusRetries - 1).value)
  {
    var c := NewRow(s, req);
    var e := RetryOperation(CheckCalls(s.users, req, w.check), CheckRetries, Delay, Backoff).outcome.error;
    StatusWriteExhausted(c.store, c.paymentId, RefusedStatus, Refusal(e).0, w.statusWrite, 0);
    RefusalWriteEscapes(s, req, w, n);
  }

  /** A "field" write whose update goes through but whose commit fails: the
      commit's error escapes the handler. */
  lemma RefusalCommitEscapes(s: Stores, req: Request, w: World, n: nat, k: nat)
    requires ValidRequest(req)
    requires n < CreateRetries && ClearsAt(w.create, n)
    requires RetryOperation(CheckCalls(s.users, req, w.check), CheckRetries, Delay, Backoff).outcome.Raised?
    requires k < StatusRetries && ClearsAt(w.statusWrite.update, k) && w.statusWrite.commit.Some?
    ensures CreatePaymentEndpoint(s, req, w).response == Unhandled(w.statusWrite.commit.value)
  {
    var c := NewRow(s, req);
    var e := RetryOperation(CheckCalls(s.users, req, w.check), CheckRetries, Delay, Backoff).outcome.error;
    StatusCommitFaultFails(c.store, c.paymentId, RefusedStatus, Refusal(e).0, w.statusWrite, 0, k);
    RefusalWriteEscapes(s, req, w, n);
  }

  /** A user the check refuses (missing, or short of money) leaves the new
      row marked "field" with the error in its message and answers 404 with
      a fixed detail; no task is scheduled. */
  lemma RefusedUserMarksRow(s: Stores, req: Request, w: World, n: nat, m: nat, k: nat)
    requires ValidRequest(req)
    requires n < CreateRetries && ClearsAt(w.create, n)
    requires m < CheckRetries && ClearsAt(w.check, m)
    requires k < StatusRetries && ClearsAt(w.statusWrite.update, k) && w.statusWrite.commit.None?
    requires CheckUserData(s.users, req.userId, req.amount).Fail?
    ensures var r := CreatePaymentEndpoint(s, req, w);
            var c := NewRow(s, req);
            && r.response == Rejected(404, UserProblemDetail)
            && r.task == None
            && GetPaymentRecord(r.stores.payments, c.paymentId)
               == Some(Payment(c.paymentId, req.userId, req.amount, req.currency, RefusedStatus, 0,
                               UserProblemDetail + " " + Str(CheckUserData(s.users, req.userId, req.amount).error)))
  {
    CreationRecovers(s, req, w, n);
    var calls := CheckCalls(s.users, req, w.check);
    assert forall i :: 0 <= i < m ==> IsTransient(calls(i));
    assert calls(m) == CheckUserData(s.users, req.userId, req.amount);
    TerminalErrorStopsAtOnce(calls, CheckRetries, Delay, Backoff, m);
    var c := NewRow(s, req);
    var e := CheckUserData(s.users, req.userId, req.amount).error;
    var message := UserProblemDetail + " " + Str(e);
    assert Refusal(e) == (message, 404, UserProblemDetail);
    StatusWriteGoesThrough(c.store, c.paymentId, RefusedStatus, message, w.statusWrite, 0, k);
    assert CreatePaymentEndpoint(s, req, w)
        == Handled(Stores(s.users, UpdatePaymentStatus(c.store, c.paymentId, RefusedStatus, message, 0)), Rejected(404, UserProblemDetail), None);
    ReadAfterUpdate(c.store, c.paymentId, RefusedStatus, message, 0, c.paymentId);
  }

  /** A check that only ever meets store faults marks the new row "field"
      and answers 400 with the last fault in the detail. */
  lemma ExhaustedCheckMarksRow(s: Stores, req: Request, w: World, n: nat, k: nat)
    requires ValidRequest(req)
    requires n < CreateRetries && ClearsAt(w.create, n)
    requires AllTransient(w.check, CheckRetries)
    requires k < StatusRetries && ClearsAt(w.statusWrite.update, k) && w.statusWrite.commit.None?
    ensures var r := CreatePaymentEndpoint(s, req, w);
            var c := NewRow(s, req);
            var detail := CheckErrorPrefix + Str(w.check(CheckRetries - 1).value);
            && r.response == Rejected(400, detail)
            && r.task == None
            && GetPaymentRecord(r.stores.payments, c.paymentId)
               == Some(Payment(c.paymentId, req.userId, req.amount, req.currency, RefusedStatus, 0, detail))
  {
    CreationRecovers(s, req, w, n);
    var calls := CheckCalls(s.users, req, w.check);
    assert forall i :: 0 <= i < CheckRetries ==> IsTransient(calls(i));
    ExhaustionReraisesLastError(calls, CheckRetries, Delay, Backoff);
    var c := NewRow(s, req);
    var detail := CheckErrorPrefix + Str(w.check(CheckRetries - 1).value);
    StatusWriteGoesThrough(c.store, c.paymentId, RefusedStatus, detail, w.statusWrite, 0, k);
  }

  /** A user who can pay, once both stores recover, gets the payment
      accepted and `finalize_payment` scheduled with the loyalty estimate;
      conversely an accepted payment always had a user who could pay. */
  lemma PayableUserAccepted(s: Stores, req: Request, w: World, n: nat, m: nat)
    requires ValidRequest(req)
    requires n < CreateRetries && ClearsAt(w.create, n)
    requires m < CheckRetries && ClearsAt(w.check, m)
    requires CheckUserData(s.users, req.userId, req.amount).Ok?
    ensures var c := NewRow(s, req);
            CreatePaymentEndpoint(s, req, w)
            == Handled(Stores(s.users, c.store), Accepted(c.paymentId, ProcessingStatus, ProcessingMessage),
                       Some(Finalize(c.paymentId, req.userId, req.amount, req.currency, EstimatedBonus(w.loyalty))))
  {
    CreationRecovers(s, req, w, n);
    var calls := CheckCalls(s.users, req, w.check);
    assert forall i :: 0 <= i < m ==> IsTransient(calls(i));
    assert calls(m) == CheckUserData(s.users, req.userId, req.amount);
    SuccessAfterTransientFailures(calls, CheckRetries, Delay, Backoff, m);
  }

  /** The bonus handed on is the first loyalty reply's `bonus` key, whatever
      that reply's status says. */
  lemma LoyaltyReplyTakenAsIs(s: Stores, req: Request, w: World, reply: Reply)
    requires ValidRequest(req)
    requires w.loyalty(0) == Ok(reply)
    ensures var r := CreatePaymentEndpoint(s, req, w);
            r.response.Accepted? ==> r.task.value.bonus == BonusOf(reply)
  {
    assert FailedTransiently(w.loyalty, 0);
  }

  /** Three failed loyalty calls are the whole budget: the estimate is 0
      even if a fourth call would have answered. */
  lemma LoyaltyBudgetExhausted(s: Stores, req: Request, w: World)
    requires ValidRequest(req)
    requires forall i :: 0 <= i < LoyaltyRetries ==> IsTransient(w.loyalty(i))
    ensures var r := CreatePaymentEndpoint(s, req, w);
            r.response.Accepted? ==> r.task.value.bonus == 0
  {
    assert forall n :: 0 <= n < LoyaltyRetries && FailedTransiently(w.loyalty, n) ==> w.loyalty(n).Fail?;
  }

  /** The notification's outcome is only logged: it changes nothing. */
  lemma NotificationIgnored(s: Stores, req: Request, w: World, notify: Attempt<Reply>)
    requires ValidRequest(req)
    ensures CreatePaymentEndpoint(s, req, w.(notify := notify)) == CreatePaymentEndpoint(s, req, w)
  {
  }

  /** The handler keeps the payment store's bonus confined to successful
      payments: it inserts with bonus 0.00 and writes "field" with bonus 0. */
  lemma EndpointKeepsBonusOnSuccess(s: Stores, req: Request, w: World)
    requires ValidRequest(req)
    requires BonusOnlyOnSuccess(s.payments)
    ensures BonusOnlyOnSuccess(CreatePaymentEndpoint(s, req, w).stores.payments)
  {
    var r := CreatePaymentEndpoint(s, req, w);
    var created := RetryOperation(CreateCalls(s.payments, req, w.create), CreateRetries, Delay, Backoff).outcome;
    if created.Raised? {
      assert r.stores == s;
    } else {
      CreatedRow(s.payments, req, w.create, CreateRetries, Delay, Backoff);
      var c := created.value;
      InsertKeepsBonusOnSuccess(s.payments, req.userId, req.amount, req.currency, ProcessingStatus, ProcessingMessage);
      var checked := RetryOperation(CheckCalls(s.users, req, w.check), CheckRetries, Delay, Backoff).outcome;
      if checked.Raised? {
        var message := Refusal(checked.error).0;
        WritesKeepBonusOnSuccess(c.store, c.paymentId, RefusedStatus, message, 0);
        var write := ProtectedUpdatePaymentStatus(c.store, c.paymentId, RefusedStatus, message, w.statusWrite);
        assert r.stores.payments == write.state;
      } else {
        assert r.stores.payments == c.store;
      }
    }
  }
}

=== FILE: background.dfy ===
/** The background finalizers that run after a payment was accepted:
    `finalize_payment` (version 2, with deferred bonus reconciliation) and
    `process_payment` (version 1). Notifications are recorded by the status
    they announce; their replies and errors are only logged. */
module Background {
  import opened Basics
  import opened Errors
  import opened Services
  import opened Retry
  import opened UserDb
  import opened PaymentDb
  import opened Protected

  /** How a background task ends: done, still inside the unbounded loyalty
      retry, or killed by an exception that escaped it. */
  datatype TaskState = Finished | AwaitingLoyalty | Crashed(error: Error)

  /** The stores after the task, the statuses it notified the user of, and how it ended. */
  datatype Run = Run(stores: Stores, notified: seq<string>, state: TaskState)

  /** The outside world as `finalize_payment` meets it: settlement faults,
      the notification outcome, the loyalty calls of the unbounded retry,
      and the faults of the deferred bonus write and of the "failed" write. */
  datatype FinalizeWorld = FinalizeWorld(
    settle: SettleFaults,
    notify: Attempt<Reply>,
    loyalty: seq<Attempt<Reply>>,
    bonusWrite: StatusFaults,
    failWrite: StatusFaults)

  /** The outside world as `process_payment` meets it. */
  datatype ProcessWorld = ProcessWorld(
    settle: SettleFaults,
    notify: Attempt<Reply>,
    loyalty: seq<Attempt<Reply>>,
    failWrite: StatusFaults)

  const LoyaltyDelay := 0.5
  const LoyaltyBackoff := 2.0
  const LoyaltyMaxDelay := 120.0

  const BonusMessage := "Фоновая операция по зачислению бонусов прошла успешно."
  const FailurePrefix := "Ошибка обработки платежа:"

  /** The `except Exception` branch of both finalizers: write "failed" with
      bonus 0.00 and no notification; if that write fails as well, its error
      escapes and ends the task. */
  function MarkFailed(s: Stores, paymentId: int, e: Error, faults: StatusFaults, notified: seq<string>): (r: Run)
    ensures r.stores.users == s.users && r.notified == notified
    ensures r.state.Finished? ==> r.stores.payments == UpdatePaymentStatus(s.payments, paymentId, FailedStatus, FailurePrefix + Str(e), 0)
    ensures r.state.Crashed? ==> r.stores.payments == s.payments
    ensures !r.state.AwaitingLoyalty?
    ensures var write := ProtectedUpdatePaymentStatus(s.payments, paymentId, FailedStatus, FailurePrefix + Str(e), faults);
            && (r.state.Finished? <==> write.out.Ok?)
            && (r.state.Crashed? ==> r.state.error == write.out.error)
  {
    var w := ProtectedUpdatePaymentStatus(s.payments, paymentId, FailedStatus, FailurePrefix + Str(e), faults);
    if w.out.Fail? then Run(Stores(s.users, w.state), notified, Crashed(w.out.error))
    else Run(Stores(s.users, w.state), notified, Finished)
  }

  /** `finalize_payment`: settle with the bonus estimated at request time;
      on success notify "success" and, when that estimate was 0.00, wait for
      the loyalty service without limit and record its bonus on the still
      successful payment. Any exception marks the payment "failed". */
  function FinalizePayment(s: Stores, paymentId: int, userId: int, amount: Cents, currency: string, bonus: Cents, w: FinalizeWorld): (r: Run)
    ensures var settle := ProtectedProcessTransaction(s, paymentId, userId, amount, bonus, w.settle);
            && (settle.out.Ok? <==> r.notified == [SuccessStatus])
            && (settle.out.Fail? <==> r.notified == [])
            && (settle.out.Ok? ==> r.stores.users == settle.state.users)
            && (settle.out.Fail? ==> r.stores.users == s.users)
    ensures r.state.AwaitingLoyalty? ==> bonus == 0 && r.stores == ProtectedProcessTransaction(s, paymentId, userId, amount, bonus, w.settle).state
  {
    var settle := ProtectedProcessTransaction(s, paymentId, userId, amount, bonus, w.settle);
    if settle.out.Fail? then MarkFailed(settle.state, paymentId, settle.out.error, w.failWrite, [])
    else
      var notified := [SuccessStatus];
      if bonus != 0 then Run(settle.state, notified, Finished)
      else
        match RetryUntilSuccess(w.loyalty, LoyaltyDelay, LoyaltyBackoff, LoyaltyMaxDelay)
        case StillRetrying(_) => Run(settle.state, notified, AwaitingLoyalty)
        case Succeeded(reply, _, _) =>
          var write := ProtectedUpdatePaymentStatus(settle.state.payments, paymentId, SuccessStatus, BonusMessage, w.bonusWrite, BonusOf(reply));
          if write.out.Fail? then MarkFailed(Stores(settle.state.users, write.state), paymentId, write.out.error, w.failWrite, notified)
          else Run(Stores(settle.state.users, write.state), notified, Finished)
  }

  /** `process_payment`: settle with bonus 0.00; on success notify
      "success" and start the unbounded loyalty retry without ever reading
      its result; any exception marks the payment "failed". */
  function ProcessPayment(s: Stores, paymentId: int, userId: int, amount: Cents, currency: string, w: ProcessWorld): (r: Run)
    ensures var settle := ProtectedProcessTransaction(s, paymentId, userId, amount, 0, w.settle);
            && (settle.out.Ok? ==> r == Run(settle.state, [SuccessStatus], Finished))
            && (settle.out.Fail? ==> r.notified == [] && r.stores.users == s.users)
    ensures !r.state.AwaitingLoyalty?
  {
    var settle := ProtectedProcessTransaction(s, paymentId, userId, amount, 0, w.settle);
    if settle.out.Fail? then MarkFailed(settle.state, paymentId, settle.out.error, w.failWrite, [])
    else Run(settle.state, [SuccessStatus], Finished)
  }

  /** With a non-zero estimate, a successful settlement is final: the payment
      holds "success" with exactly the bonus passed in, and no deferred
      reconciliation runs. */
  lemma FinalizeKeepsGivenBonus(s: Stores, paymentId: int, userId: int, amount: Cents, currency: string, bonus: Cents, w: FinalizeWorld)
    requires bonus != 0
    requires ProtectedProcessTransaction(s, paymentId, userId, amount, bonus, w.settle).out.Ok?
    ensures FinalizePayment(s, paymentId, userId, amount, currency, bonus, w).state == Finished
    ensures FinalizePayment(s, paymentId, userId, amount, currency, bonus, w).stores.payments
         == UpdatePaymentStatus(s.payments, paymentId, SuccessStatus, SettledMessage, bonus)
  {
  }

  /** With a zero estimate and a successful settlement, the first successful
      loyalty reply's bonus is written back with status "success". */
  lemma DeferredBonusReconciled(s: Stores, paymentId: int, userId: int, amount: Cents, currency: string, w: FinalizeWorld, n: nat)
    requires ProtectedProcessTransaction(s, paymentId, userId, amount, 0, w.settle).out.Ok?
    requires n < |w.loyalty| && IsSuccess(w.loyalty[n])
    requires forall i :: 0 <= i < n ==> !IsSuccess(w.loyalty[i])
    requires ProtectedUpdatePaymentStatus(
               ProtectedProcessTransaction(s, paymentId, userId, amount, 0, w.settle).state.payments,
               paymentId, SuccessStatus, BonusMessage, w.bonusWrite, BonusOf(w.loyalty[n].value)).out.Ok?
    ensures FinalizePayment(s, paymentId, userId, amount, currency, 0, w).state == Finished
    ensures FinalizePayment(s, paymentId, userId, amount, currency, 0, w).stores.payments
         == UpdatePaymentStatus(s.payments, paymentId, SuccessStatus, BonusMessage, BonusOf(w.loyalty[n].value))
  {
    FirstSuccessIsReturned(w.loyalty, LoyaltyDelay, LoyaltyBackoff, LoyaltyMaxDelay, n);
    LastUpdateWins(s.payments, paymentId, SuccessStatus, SettledMessage, 0, SuccessStatus, BonusMessage, BonusOf(w.loyalty[n].value));
  }

  /** While no loyalty reply has succeeded, the finalizer keeps waiting, and
      the payment keeps the settlement's "success" with bonus 0.00. */
  lemma DeferredBonusPending(s: Stores, paymentId: int, userId: int, amount: Cents, currency: string, w: FinalizeWorld)
    requires ProtectedProcessTransaction(s, paymentId, userId, amount, 0, w.settle).out.Ok?
    requires forall i :: 0 <= i < |w.loyalty| ==> !IsSuccess(w.loyalty[i])
    ensures FinalizePayment(s, paymentId, userId, amount, currency, 0, w).state == AwaitingLoyalty
    ensures FinalizePayment(s, paymentId, userId, amount, currency, 0, w).stores.payments
         == UpdatePaymentStatus(s.payments, paymentId, SuccessStatus, SettledMessage, 0)
  {
  }

  /** The deferred reconciliation runs only after a successful settlement of
      a zero estimate: otherwise the loyalty calls and the bonus write do
      not matter. */
  lemma DeferredOnlyAfterZeroEstimate(s: Stores, paymentId: int, userId: int, amount: Cents, currency: string, bonus: Cents,
                                      w: FinalizeWorld, loyalty: seq<Attempt<Reply>>, bonusWrite: StatusFaults)
    requires bonus != 0 || ProtectedProcessTransaction(s, paymentId, userId, amount, bonus, w.settle).out.Fail?
    ensures FinalizePayment(s, paymentId, userId, amount, currency, bonus, w)
         == FinalizePayment(s, paymentId, userId, amount, currency, bonus, w.(loyalty := loyalty, bonusWrite := bonusWrite))
  {
  }

  /** The final notification's reply or error never changes what a finalizer does. */
  lemma NotificationNeverMatters(s: Stores, paymentId: int, userId: int, amount: Cents, currency: string, bonus: Cents,
                                 w: FinalizeWorld, v: ProcessWorld, notify: Attempt<Reply>)
    ensures FinalizePayment(s, paymentId, userId, amount, currency, bonus, w)
         == FinalizePayment(s, paymentId, userId, amount, currency, bonus, w.(notify := notify))
    ensures ProcessPayment(s, paymentId, userId, amount, currency, v)
         == ProcessPayment(s, paymentId, userId, amount, currency, v.(notify := notify))
  {
  }

  /** A failed settlement marks the payment "failed" with bonus 0.00 and the
      error's text, leaves the balance alone, and notifies no one. */
  lemma FinalizeFailurePath(s: Stores, paymentId: int, userId: int, amount: Cents, currency: string, bonus: Cents, w: FinalizeWorld)
    requires ProtectedProcessTransaction(s, paymentId, userId, amount, bonus, w.settle).out.Fail?
    ensures var settle := ProtectedProcessTransaction(s, paymentId, userId, amount, bonus, w.settle);
            var r := FinalizePayment(s, paymentId, userId, amount, currency, bonus, w);
            && r.notified == []
            && r.stores.users == s.users
            && (r.state.Finished? ==>
                  r.stores.payments == UpdatePaymentStatus(settle.state.payments, paymentId, FailedStatus, FailurePrefix + Str(settle.out.error), 0))
            && (r.state.Crashed? ==> r.stores.payments == settle.state.payments)
  {
  }

  /** As written, a deferred bonus write that fails after a committed debit
      marks the payment "failed" while the money stays debited. */
  lemma DeferredWriteFailureAfterDebit(s: Stores, paymentId: int, userId: int, amount: Cents, currency: string, w: FinalizeWorld, n: nat)
    requires ProtectedProcessTransaction(s, paymentId, userId, amount, 0, w.settle).out.Ok?
    requires n < |w.loyalty| && IsSuccess(w.loyalty[n])
    requires forall i :: 0 <= i < n ==> !IsSuccess(w.loyalty[i])
    requires ProtectedUpdatePaymentStatus(
               ProtectedProcessTransaction(s, paymentId, userId, amount, 0, w.settle).state.payments,
               paymentId, SuccessStatus, BonusMessage, w.bonusWrite, BonusOf(w.loyalty[n].value)).out.Fail?
    ensures var r := FinalizePayment(s, paymentId, userId, amount, currency, 0, w);
            && UpdateUserBalance(s.users, userId, amount) == Ok(r.stores.users)
            && (r.state.Finished? ==> paymentId in s.payments.rows ==>
                  && GetPaymentRecord(r.stores.payments, paymentId).Some?
                  && GetPaymentRecord(r.stores.payments, paymentId).value.status == FailedStatus
                  && GetPaymentRecord(r.stores.payments, paymentId).value.bonus == 0)
  {
    FirstSuccessIsReturned(w.loyalty, LoyaltyDelay, LoyaltyBackoff, LoyaltyMaxDelay, n);
  }

  /** Version 1 never records a loyalty bonus: whatever the loyalty service
      answers, a successfully processed payment keeps bonus 0.00. */
  lemma ProcessPaymentDropsLoyalty(s: Stores, paymentId: int, userId: int, amount: Cents, currency: string, w: ProcessWorld, loyalty: seq<Attempt<Reply>>)
    requires ProtectedProcessTransaction(s, paymentId, userId, amount, 0, w.settle).out.Ok?
    ensures ProcessPayment(s, paymentId, userId, amount, currency, w).stores.payments
         == UpdatePaymentStatus(s.payments, paymentId, SuccessStatus, SettledMessage, 0)
    ensures ProcessPayment(s, paymentId, userId, amount, currency, w)
         == ProcessPayment(s, paymentId, userId, amount, currency, w.(loyalty := loyalty))
  {
  }

  /** A failed version-1 settlement marks the payment "failed" with bonus
      0.00 and notifies no one. */
  lemma ProcessFailurePath(s: Stores, paymentId: int, userId: int, amount: Cents, currency: string, w: ProcessWorld)
    requires ProtectedProcessTransaction(s, paymentId, userId, amount, 0, w.settle).out.Fail?
    ensures var settle := ProtectedProcessTransaction(s, paymentId, userId, amount, 0, w.settle);
            var r := ProcessPayment(s, paymentId, userId, amount, currency, w);
            && r.notified == []
            && (r.state.Finished? ==>
                  r.stores.payments == UpdatePaymentStatus(settle.state.payments, paymentId, FailedStatus, FailurePrefix + Str(settle.out.error), 0))
            && (r.state.Crashed? ==> r.stores.payments == settle.state.payments)
  {
  }

  /** A "failed" write whose faults clear within three attempts and whose
      commit goes through finishes the task with the payment marked
      "failed", bonus 0.00 and the error's text. */
  lemma MarkFailedGoesThrough(s: Stores, paymentId: int, e: Error, faults: StatusFaults, notified: seq<string>, n: nat)
    requires n < StatusRetries && ClearsAt(faults.update, n) && faults.commit.None?
    ensures MarkFailed(s, paymentId, e, faults, notified)
         == Run(Stores(s.users, UpdatePaymentStatus(s.payments, paymentId, FailedStatus, FailurePrefix + Str(e), 0)), notified, Finished)
  {
    StatusWriteGoesThrough(s.payments, paymentId, FailedStatus, FailurePrefix + Str(e), faults, 0, n);
  }

  /** With a "failed" write that goes through, a failed settlement always
      finishes the task with the payment marked "failed". */
  lemma FinalizeMarksFailed(s: Stores, paymentId: int, userId: int, amount: Cents, currency: string, bonus: Cents, w: FinalizeWorld, n: nat)
    requires ProtectedProcessTransaction(s, paymentId, userId, amount, bonus, w.settle).out.Fail?
    requires n < StatusRetries && ClearsAt(w.failWrite.update, n) && w.failWrite.commit.None?
    ensures var settle := ProtectedProcessTransaction(s, paymentId, userId, amount, bonus, w.settle);
            FinalizePayment(s, paymentId, userId, amount, currency, bonus, w)
            == Run(Stores(s.users, UpdatePaymentStatus(settle.state.payments, paymentId, FailedStatus, FailurePrefix + Str(settle.out.error), 0)),
                   [], Finished)
  {
    var settle := ProtectedProcessTransaction(s, paymentId, userId, amount, bonus, w.settle);
    MarkFailedGoesThrough(settle.state, paymentId, settle.out.error, w.failWrite, [], n);
  }

  /** With a "failed" write that goes through, a failed version-1
      settlement always finishes the task with the payment marked "failed". */
  lemma ProcessMarksFailed(s: Stores, paymentId: int, userId: int, amount: Cents, currency: string, w: ProcessWorld, n: nat)
    requires ProtectedProcessTransaction(s, paymentId, userId, amount, 0, w.settle).out.Fail?
    requires n < StatusRetries && ClearsAt(w.failWrite.update, n) && w.failWrite.commit.None?
    ensures var settle := ProtectedProcessTransaction(s, paymentId, userId, amount, 0, w.settle);
            ProcessPayment(s, paymentId, userId, amount, currency, w)
            == Run(Stores(s.users, UpdatePaymentStatus(settle.state.payments, paymentId, FailedStatus, FailurePrefix + Str(settle.out.error), 0)),
                   [], Finished)
  {
    var settle := ProtectedProcessTransaction(s, paymentId, userId, amount, 0, w.settle);
    MarkFailedGoesThrough(settle.state, paymentId, settle.out.error, w.failWrite, [], n);
  }

  /** With a "failed" write that goes through, a deferred bonus write that
      fails after a committed debit always finishes the task with the
      payment "failed", bonus 0.00, and the balance debited. */
  lemma DeferredFailureMarksFailed(s: Stores, paymentId: int, userId: int, amount: Cents, currency: string, w: FinalizeWorld, n: nat, k: nat)
    requires ProtectedProcessTransaction(s, paymentId, userId, amount, 0, w.settle).out.Ok?
    requires n < |w.loyalty| && IsSuccess(w.loyalty[n])
    requires forall i :: 0 <= i < n ==> !IsSuccess(w.loyalty[i])
    requires ProtectedUpdatePaymentStatus(
               ProtectedProcessTransaction(s, paymentId, userId, amount, 0, w.settle).state.payments,
               paymentId, SuccessStatus, BonusMessage, w.bonusWrite, BonusOf(w.loyalty[n].value)).out.Fail?
    requires k < StatusRetries && ClearsAt(w.failWrite.update, k) && w.failWrite.commit.None?
    requires paymentId in s.payments.rows
    ensures var r := FinalizePayment(s, paymentId, userId, amount, currency, 0, w);
            && r.state == Finished
            && r.notified == [SuccessStatus]
            && UpdateUserBalance(s.users, userId, amount) == Ok(r.stores.users)
            && GetPaymentRecord(r.stores.payments, paymentId).Some?
            && GetPaymentRecord(r.stores.payments, paymentId).value.status == FailedStatus
            && GetPaymentRecord(r.stores.payments, paymentId).value.bonus == 0
  {
    FirstSuccessIsReturned(w.loyalty, LoyaltyDelay, LoyaltyBackoff, LoyaltyMaxDelay, n);
    DeferredWriteFailureAfterDebit(s, paymentId, userId, amount, currency, w, n);
    var settle := ProtectedProcessTransaction(s, paymentId, userId, amount, 0, w.settle);
    var write := ProtectedUpdatePaymentStatus(settle.state.payments, paymentId, SuccessStatus, BonusMessage, w.bonusWrite, BonusOf(w.loyalty[n].value));
    var failed := Stores(settle.state.users, write.state);
    MarkFailedGoesThrough(failed, paymentId, write.out.error, w.failWrite, [SuccessStatus], k);
  }

  /** Marking a payment "failed" keeps a non-zero bonus confined to successful payments. */
  lemma MarkFailedKeepsBonusOnSuccess(s: Stores, paymentId: int, e: Error, faults: StatusFaults, notified: seq<string>)
    requires BonusOnlyOnSuccess(s.payments)
    ensures BonusOnlyOnSuccess(MarkFailed(s, paymentId, e, faults, notified).stores.payments)
  {
    WritesKeepBonusOnSuccess(s.payments, paymentId, FailedStatus, FailurePrefix + Str(e), 0);
  }

  /** Settlement keeps every balance non-negative and a non-zero bonus
      confined to successful payments. */
  lemma SettlementKeepsInvariants(s: Stores, paymentId: int, userId: int, amount: Cents, bonus: Cents, f: SettleFaults)
    requires Solvent(s.users) && BonusOnlyOnSuccess(s.payments)
    ensures var r := ProtectedProcessTransaction(s, paymentId, userId, amount, bonus, f);
            Solvent(r.state.users) && BonusOnlyOnSuccess(r.state.payments)
  {
    SettlementOutcomeShape(s, paymentId, userId, amount, bonus, f);
    WritesKeepBonusOnSuccess(s.payments, paymentId, SuccessStatus, SettledMessage, bonus);
  }

  /** `finalize_payment` keeps every balance non-negative and a non-zero
      bonus confined to successful payments. */
  lemma FinalizeKeepsInvariants(s: Stores, paymentId: int, userId: int, amount: Cents, currency: string, bonus: Cents, w: FinalizeWorld)
    requires Solvent(s.users) && BonusOnlyOnSuccess(s.payments)
    ensures var r := FinalizePayment(s, paymentId, userId, amount, currency, bonus, w);
            Solvent(r.stores.users) && BonusOnlyOnSuccess(r.stores.payments)
  {
    SettlementKeepsInvariants(s, paymentId, userId, amount, bonus, w.settle);
    var settle := ProtectedProcessTransaction(s, paymentId, userId, amount, bonus, w.settle);
    if settle.out.Fail? {
      MarkFailedKeepsBonusOnSuccess(settle.state, paymentId, settle.out.error, w.failWrite, []);
    } else if bonus == 0 {
      var loyalty := RetryUntilSuccess(w.loyalty, LoyaltyDelay, LoyaltyBackoff, LoyaltyMaxDelay);
      if loyalty.Succeeded? {
        var p1 := settle.state.payments;
        WritesKeepBonusOnSuccess(p1, paymentId, SuccessStatus, BonusMessage, BonusOf(loyalty.reply));
        var write := ProtectedUpdatePaymentStatus(p1, paymentId, SuccessStatus, BonusMessage, w.bonusWrite, BonusOf(loyalty.reply));
        if write.out.Fail? {
          MarkFailedKeepsBonusOnSuccess(Stores(settle.state.users, write.state), paymentId, write.out.error, w.failWrite, [SuccessStatus]);
        }
      }
    }
  }

  /** `process_payment` keeps the same two invariants. */
  lemma ProcessKeepsInvariants(s: Stores, paymentId: int, userId: int, amount: Cents, currency: string, w: ProcessWorld)
    requires Solvent(s.users) && BonusOnlyOnSuccess(s.payments)
    ensures var r := ProcessPayment(s, paymentId, userId, amount, currency, w);
            Solvent(r.stores.users) && BonusOnlyOnSuccess(r.stores.payments)
  {
    SettlementKeepsInvariants(s, paymentId, userId, amount, 0, w.settle);
    var settle := ProtectedProcessTransaction(s, paymentId, userId, amount, 0, w.settle);
    if settle.out.Fail? {
      MarkFailedKeepsBonusOnSuccess(settle.state, paymentId, settle.out.error, w.failWrite, []);
    }
  }
}

=== FILE: basics.dfy ===
/** Small shared vocabulary: optional values, real-number helpers for retry
    delays, and decimal rendering of integers for error messages. */
module Basics {

  /** Python's `None`-or-value. */
  datatype Option<+T> = None | Some(value: T) {

    /** The value, or `default` when there is none (Python's `d.get(k, default)`). */
    function GetOr(default: T): (r: T)
      ensures Some? ==> r == value
      ensures None? ==> r == default
    {
      match this
      case Some(v) => v
      case None => default
    }
  }

  /** Money in integer cents (the `DECIMAL(10,2)` columns scaled by 100). */
  type Cents = int

  function Min(a: real, b: real): (r: real)
    ensures r <= a && r <= b
    ensures r == a || r == b
  {
    if a <= b then a else b
  }

  function Max(a: real, b: real): (r: real)
    ensures a <= r && b <= r
    ensures r == a || r == b
  {
    if a <= b then b else a
  }

  /** `b` raised to the natural power `k`. */
  function Pow(b: real, k: nat): real
  {
    if k == 0 then 1.0 else b * Pow(b, k - 1)
  }

  function DigitChar(d: nat): (c: char)
    requires d < 10
  {
    "0123456789"[d]
  }

  /** Decimal digits of `n`, most significant first, as Python's `str(n)`. */
  function NatToString(n: nat): (s: string)
    ensures |s| >= 1
    ensures forall i :: 0 <= i < |s| ==> '0' <= s[i] <= '9'
  {
    if n < 10 then [DigitChar(n)] else NatToString(n / 10) + [DigitChar(n % 10)]
  }

  function IntToString(i: int): (s: string)
    ensures |s| >= 1
    ensures s[0] == '-' <==> i < 0
  {
    if i < 0 then "-" + NatToString(-i) else NatToString(i)
  }
}

=== FILE: errors.dfy ===
/** The application's exception hierarchy and how `except` clauses pick a
    handler for a raised error.

    Python classifies failures by subclassing:
      Exception > MyCustomError > NoRetryError > {UserNotFoundError, NotEnoughMoney}
    and the built-in TimeoutError (raised by `asyncio.wait_for`) is a subclass
    of OSError; since no handler here catches OSError, the model places it
    directly under Exception. Every other failure (a lost database connection, an HTTP
    error from a remote service) is a plain Exception. */
module Errors {
  import opened Basics

  /** The exception classes the settlement code raises or catches. */
  datatype ExcType =
    | ExceptionType
    | TimeoutErrorType
    | MyCustomErrorType
    | NoRetryErrorType
    | UserNotFoundErrorType
    | NotEnoughMoneyType

  /** Distance from the root class `Exception`. */
  function Depth(t: ExcType): nat
  {
    match t
    case ExceptionType => 0
    case TimeoutErrorType => 1
    case MyCustomErrorType => 1
    case NoRetryErrorType => 2
    case UserNotFoundErrorType => 3
    case NotEnoughMoneyType => 3
  }

  /** The direct base class of `t`; `Exception` is the root of this hierarchy.
      The contract only fixes the depths; which base each class has is
      pinned by `TerminalFamily` and `TerminalErrorsAreExceptions`. */
  function Base(t: ExcType): (r: Option<ExcType>)
    ensures r.Some? ==> Depth(r.value) + 1 == Depth(t)
    ensures r.None? <==> t == ExceptionType
  {
    match t
    case ExceptionType => None
    case TimeoutErrorType => Some(ExceptionType)
    case MyCustomErrorType => Some(ExceptionType)
    case NoRetryErrorType => Some(MyCustomErrorType)
    case UserNotFoundErrorType => Some(NoRetryErrorType)
    case NotEnoughMoneyType => Some(NoRetryErrorType)
  }

  /** Python's `issubclass(t, u)`: `u` is `t` or one of its ancestors. */
  predicate IsSubclass(t: ExcType, u: ExcType)
    decreases Depth(t)
  {
    t == u || (Base(t).Some? && IsSubclass(Base(t).value, u))
  }

  /** A raised error: its class together with the data the class carries.
      Both terminal errors default `code` to `None`, and `UserNotFoundError`
      defaults its message to "User not found". */
  datatype Error =
    | Exception(message: string)
    | TimeoutError(message: string)
    | MyCustomError(message: string)
    | NoRetryError(message: string)
    | UserNotFoundError(message: string := "User not found", code: Option<int> := None)
    | NotEnoughMoney(message: string, code: Option<int> := None)

  function TypeOf(e: Error): ExcType
  {
    match e
    case Exception(_) => ExceptionType
    case TimeoutError(_) => TimeoutErrorType
    case MyCustomError(_) => MyCustomErrorType
    case NoRetryError(_) => NoRetryErrorType
    case UserNotFoundError(_, _) => UserNotFoundErrorType
    case NotEnoughMoney(_, _) => NotEnoughMoneyType
  }

  /** Python's `isinstance(e, t)`. */
  predicate IsInstance(e: Error, t: ExcType)
  {
    IsSubclass(TypeOf(e), t)
  }

  /** Retrying cannot help: the error is a `NoRetryError`. */
  predicate IsTerminal(e: Error)
  {
    IsInstance(e, NoRetryErrorType)
  }

  /** Python's `str(e)`: every class here renders as its message. */
  function Str(e: Error): string
  {
    e.message
  }

  /** An `except (A, B, ...)` clause catches `e` when `e` is an instance of one of its classes. */
  predicate Catches(clause: set<ExcType>, e: Error)
  {
    exists t :: t in clause && IsInstance(e, t)
  }

  /** The index of the handler that runs when `e` reaches the `except`
      clauses `clauses` of one `try`, tried top to bottom; `None` when the
      error escapes all of them. */
  function Dispatch(e: Error, clauses: seq<set<ExcType>>): (r: Option<nat>)
    ensures r.Some? ==> r.value < |clauses| && Catches(clauses[r.value], e)
    ensures r.Some? ==> forall j :: 0 <= j < r.value ==> !Catches(clauses[j], e)
    ensures r.None? ==> forall j :: 0 <= j < |clauses| ==> !Catches(clauses[j], e)
  {
    if |clauses| == 0 then None
    else if Catches(clauses[0], e) then Some(0)
    else match Dispatch(e, clauses[1..])
      case None => None
      case Some(k) => Some(k + 1)
  }

  /** Exactly the `NoRetryError` family is terminal; timeouts, plain
      exceptions and a bare `MyCustomError` are transient. */
  lemma TerminalFamily(e: Error)
    ensures IsTerminal(e) <==> (e.NoRetryError? || e.UserNotFoundError? || e.NotEnoughMoney?)
  {
  }

  /** Both concrete terminal errors are `NoRetryError`s, and, through
      `MyCustomError`, plain `Exception`s as well. */
  lemma TerminalErrorsAreExceptions(message: string, code: Option<int>)
    ensures IsTerminal(UserNotFoundError(message, code)) && IsTerminal(NotEnoughMoney(message, code))
    ensures IsInstance(UserNotFoundError(message, code), MyCustomErrorType)
    ensures IsInstance(NotEnoughMoney(message, code), MyCustomErrorType)
    ensures IsInstance(UserNotFoundError(message, code), ExceptionType)
    ensures IsInstance(NotEnoughMoney(message, code), ExceptionType)
  {
  }

  /** A handler for `Exception` catches every error of this model. */
  lemma EveryErrorIsAnException(e: Error)
    ensures IsInstance(e, ExceptionType)
  {
  }

  /** The default arguments of the two terminal error constructors. */
  lemma TerminalErrorDefaults(message: string)
    ensures UserNotFoundError().message == "User not found"
    ensures UserNotFoundError().code == None
    ensures UserNotFoundError(message).code == None
    ensures NotEnoughMoney(message).code == None
  {
  }

  /** With the terminal clause first (`except NoRetryError` then `except
      Exception`, as the retry executor writes it) the first handler runs
      exactly for terminal errors and the second for all others. */
  lemma TerminalClauseFirst(e: Error)
    ensures Dispatch(e, [{NoRetryErrorType}, {ExceptionType}]) == Some(if IsTerminal(e) then 0 else 1)
  {
    var clauses := [{NoRetryErrorType}, {ExceptionType}];
    assert IsTerminal(e) ==> Catches(clauses[0], e);
    assert Catches(clauses[1], e) by {
      EveryErrorIsAnException(e);
      assert ExceptionType in clauses[1];
    }
  }

  /** In the opposite order the generic handler swallows every terminal
      error, so the terminal handler never runs. */
  lemma GenericClauseFirstHidesTerminal(e: Error)
    ensures Dispatch(e, [{ExceptionType}, {NoRetryErrorType}]) == Some(0)
  {
    var clauses := [{ExceptionType}, {NoRetryErrorType}];
    assert Catches(clauses[0], e) by {
      EveryErrorIsAnException(e);
      assert ExceptionType in clauses[0];
    }
  }

  /** What one call of an operation produced: a value, or a raised error. */
  datatype Attempt<+T> = Ok(value: T) | Fail(error: Error)

  /** A store operation's resulting state together with what it returned or raised. */
  datatype Effect<S, T> = Effect(state: S, out: Attempt<T>)

  /** An attempt that first meets an injected store fault: a fault raises as
      is, before the operation takes effect; otherwise the operation's own
      attempt stands. */
  function Faulted<T>(fault: Option<Error>, a: Attempt<T>): (r: Attempt<T>)
    ensures fault.Some? ==> r == Fail(fault.value)
    ensures fault.None? ==> r == a
  {
    match fault
    case Some(e) => Fail(e)
    case None => a
  }
}

=== FILE: http.dfy ===
/** What the request handlers hand back, what they schedule, and the
    payment-status lookup that both API versions serve with the same code. */
module Http {
  import opened Basics
  import opened Errors
  import opened Retry
  import opened UserDb
  import opened PaymentDb
  import opened Protected

  /** A payment request as the request schema admits it. */
  datatype Request = Request(userId: int, amount: Cents, currency: string)

  /** The request schema's only constraint: the amount is positive. */
  predicate ValidRequest(req: Request)
  {
    req.amount > 0
  }

  /** A handler's answer: the "processing" acknowledgement of a new payment,
      a payment's status, a rejection with an HTTP status code, or an
      exception that escaped the handler (the framework then answers 500). */
  datatype Response =
    | Accepted(paymentId: int, status: string, message: string)
    | Status(payment: Payment)
    | Rejected(code: int, detail: string)
    | Unhandled(error: Error)

  /** The background task a handler schedules once it has answered. */
  datatype Task =
    | Finalize(paymentId: int, userId: int, amount: Cents, currency: string, bonus: Cents)
    | Process(paymentId: int, userId: int, amount: Cents, currency: string)

  /** The stores after the handler, its answer, and the task it scheduled, if any. */
  datatype Handled = Handled(stores: Stores, response: Response, task: Option<Task>)

  const ProcessingStatus := "processing"
  const ProcessingMessage := "Платёж в обработке"
  const NotFoundDetail := "Платёж не найден"
  const TimedOutDetail := "Время ожидания запроса истекло"

  const LookupRetries := 3
  const LookupDelay := 0.5

  /** The insert attempts of a new "processing" payment for `req`. */
  function CreateCalls(p: Payments, req: Request, faults: nat -> Option<Error>): nat -> Attempt<Created>
  {
    (i: nat) => CreatePaymentRecord(p, faults(i), req.userId, req.amount, req.currency, ProcessingStatus, ProcessingMessage)
  }

  /** A creation run that returns hands back a fresh "processing" row for the request. */
  lemma CreatedRow(p: Payments, req: Request, faults: nat -> Option<Error>, retries: int, delay: real, backoff: real)
    ensures var t := RetryOperation(CreateCalls(p, req, faults), retries, delay, backoff);
            t.outcome.Returned? ==>
              && t.outcome.value.paymentId !in p.rows
              && GetPaymentRecord(t.outcome.value.store, t.outcome.value.paymentId)
                 == Some(Payment(t.outcome.value.paymentId, req.userId, req.amount, req.currency, ProcessingStatus, 0, ProcessingMessage))
              && t.outcome.value == Insert(p, req.userId, req.amount, req.currency, ProcessingStatus, ProcessingMessage)
  {
    var t := RetryOperation(CreateCalls(p, req, faults), retries, delay, backoff);
    if t.outcome.Returned? {
      var i := t.calls - 1;
      assert CreateCalls(p, req, faults)(i)
          == CreatePaymentRecord(p, faults(i), req.userId, req.amount, req.currency, ProcessingStatus, ProcessingMessage);
    }
  }

  function LookupCalls(p: Payments, paymentId: int, faults: nat -> Option<Error>): nat -> Attempt<Option<Payment>>
  {
    (i: nat) => Faulted(faults(i), Ok(GetPaymentRecord(p, paymentId)))
  }

  /** `get_payment` (identical in both API versions): three lookup attempts
      under a five-second deadline. Deadline expiry, and a timeout raised by
      the lookup itself, answer 408; a missing payment answers 404; a found
      one is copied field by field; any other error escapes. */
  function GetPayment(p: Payments, paymentId: int, faults: nat -> Option<Error>, expired: bool): (r: Response)
    ensures expired ==> r == Rejected(408, TimedOutDetail)
    ensures r.Status? ==> paymentId in p.rows && r.payment == p.rows[paymentId]
    ensures r == Rejected(404, NotFoundDetail) ==> paymentId !in p.rows
    ensures !expired && faults(0).None? ==>
              r == if paymentId in p.rows then Status(p.rows[paymentId]) else Rejected(404, NotFoundDetail)
    ensures r.Unhandled? ==> !IsInstance(r.error, TimeoutErrorType)
                             && exists i :: 0 <= i < LookupRetries && faults(i) == Some(r.error)
    ensures var t := RetryOperation(LookupCalls(p, paymentId, faults), LookupRetries, LookupDelay, Backoff);
            !expired && t.outcome.Raised? ==>
              r == if IsInstance(t.outcome.error, TimeoutErrorType) then Rejected(408, TimedOutDetail) else Unhandled(t.outcome.error)
  {
    if expired then Rejected(408, TimedOutDetail)
    else
      var t := RetryOperation(LookupCalls(p, paymentId, faults), LookupRetries, LookupDelay, Backoff);
      assert LookupCalls(p, paymentId, faults)(0) == Faulted(faults(0), Ok(GetPaymentRecord(p, paymentId)));
      match t.outcome
      case Raised(e) =>
        assert LookupCalls(p, paymentId, faults)(t.calls - 1) == Faulted(faults(t.calls - 1), Ok(GetPaymentRecord(p, paymentId)));
        if Dispatch(e, [{TimeoutErrorType}]).Some? then Rejected(408, TimedOutDetail) else Unhandled(e)
      case Returned(row) =>
        assert LookupCalls(p, paymentId, faults)(t.calls - 1) == Faulted(faults(t.calls - 1), Ok(GetPaymentRecord(p, paymentId)));
        if row.Some? then Status(row.value) else Rejected(404, NotFoundDetail)
      case ReturnedNone => Rejected(404, NotFoundDetail)
  }

  /** A lookup whose store faults clear within the budget answers as if
      there had been no fault: the row, or 404. */
  lemma LookupRecovers(p: Payments, paymentId: int, faults: nat -> Option<Error>, n: nat)
    requires n < LookupRetries
    requires ClearsAt(faults, n)
    ensures GetPayment(p, paymentId, faults, false)
         == if paymentId in p.rows then Status(p.rows[paymentId]) else Rejected(404, NotFoundDetail)
  {
    var calls := LookupCalls(p, paymentId, faults);
    forall i | 0 <= i < n
      ensures IsTransient(calls(i))
    {
      assert calls(i) == Fail(faults(i).value);
    }
    assert calls(n) == Ok(GetPaymentRecord(p, paymentId));
    SuccessAfterTransientFailures(calls, LookupRetries, LookupDelay, Backoff, n);
  }

  /** A terminal store error on a lookup attempt stops the retries and
      escapes the handler at once: it is not a timeout, so no clause of the
      handler catches it. */
  lemma LookupTerminalEscapes(p: Payments, paymentId: int, faults: nat -> Option<Error>, n: nat)
    requires n < LookupRetries && AllTransient(faults, n)
    requires faults(n).Some? && IsTerminal(faults(n).value)
    ensures GetPayment(p, paymentId, faults, false) == Unhandled(faults(n).value)
  {
    var calls := LookupCalls(p, paymentId, faults);
    forall i | 0 <= i < n
      ensures IsTransient(calls(i))
    {
      assert calls(i) == Fail(faults(i).value);
    }
    assert calls(n) == Fail(faults(n).value);
    TerminalErrorStopsAtOnce(calls, LookupRetries, LookupDelay, Backoff, n);
    TerminalFamily(faults(n).value);
  }

  /** A timeout is not terminal, so the lookup retries it like any store
      fault; when all three attempts fail, the last error decides: a
      timeout answers 408, anything else escapes the handler. */
  lemma LookupExhausted(p: Payments, paymentId: int, faults: nat -> Option<Error>)
    requires AllTransient(faults, LookupRetries)
    ensures GetPayment(p, paymentId, faults, false)
         == if IsInstance(faults(2).value, TimeoutErrorType) then Rejected(408, TimedOutDetail) else Unhandled(faults(2).value)
  {
    var calls := LookupCalls(p, paymentId, faults);
    forall i | 0 <= i < LookupRetries
      ensures IsTransient(calls(i))
    {
      assert calls(i) == Fail(faults(i).value);
    }
    ExhaustionReraisesLastError(calls, LookupRetries, LookupDelay, Backoff);
    assert calls(2) == Fail(faults(2).value);
  }
}

=== FILE: payment_db.dfy ===
/** The payment store: the `payments` table with an autoincrement primary
    key. Amounts and bonuses are integer cents (`DECIMAL(10,2)` columns). */
module PaymentDb {
  import opened Basics
  import opened Errors

  datatype Payment = Payment(
    paymentId: int,
    userId: int,
    amount: Cents,
    currency: string,
    status: string,
    bonus: Cents,
    message: string)

  /** The rows by primary key, and the next value of the key's sequence. */
  datatype Table = Table(rows: map<int, Payment>, nextId: int)

  /** Every row sits under its own id, and the sequence is past every id in use. */
  predicate WellFormed(t: Table)
  {
    forall id :: id in t.rows ==> id < t.nextId && t.rows[id].paymentId == id
  }

  type Payments = t: Table | WellFormed(t) witness Table(map[], 1)

  /** A new row and the id the store assigned to it. */
  datatype Created = Created(store: Payments, paymentId: int)

  /** Inserting a row: the store assigns the next key, which no row holds
      yet; the row carries the given fields and a bonus of 0.00. */
  function Insert(p: Payments, userId: int, amount: Cents, currency: string, status: string, message: string): (r: Created)
    ensures r.paymentId !in p.rows
    ensures r.store.rows == p.rows[r.paymentId := Payment(r.paymentId, userId, amount, currency, status, 0, message)]
  {
    var id := p.nextId;
    Created(Table(p.rows[id := Payment(id, userId, amount, currency, status, 0, message)], id + 1), id)
  }

  /** `create_payment_record` and `create_payment_record_v2`: one insert
      attempt against a store fault. A fault rolls the insert back and is
      re-raised as is; otherwise the row is inserted. The two versions differ
      only in who commits (the caller's session, or their own). */
  function CreatePaymentRecord(p: Payments, fault: Option<Error>, userId: int, amount: Cents, currency: string, status: string, message: string): (r: Attempt<Created>)
    ensures fault.Some? ==> r == Fail(fault.value)
    ensures fault.None? ==> r.Ok? && r.value.paymentId !in p.rows
    ensures r.Ok? ==> GetPaymentRecord(r.value.store, r.value.paymentId)
                      == Some(Payment(r.value.paymentId, userId, amount, currency, status, 0, message))
    ensures r.Ok? ==> forall id :: id != r.value.paymentId ==> GetPaymentRecord(r.value.store, id) == GetPaymentRecord(p, id)
  {
    Faulted(fault, Ok(Insert(p, userId, amount, currency, status, message)))
  }

  /** `update_payment_status` on the table: the row's status, message and
      bonus are overwritten and nothing else; a missing id is a silent no-op. */
  function UpdatePaymentStatus(p: Payments, paymentId: int, status: string, message: string, bonus: Cents): (r: Payments)
    ensures r.rows.Keys == p.rows.Keys && r.nextId == p.nextId
    ensures paymentId !in p.rows ==> r == p
    ensures paymentId in p.rows ==>
              && r.rows[paymentId].status == status
              && r.rows[paymentId].message == message
              && r.rows[paymentId].bonus == bonus
              && r.rows[paymentId].paymentId == p.rows[paymentId].paymentId
              && r.rows[paymentId].userId == p.rows[paymentId].userId
              && r.rows[paymentId].amount == p.rows[paymentId].amount
              && r.rows[paymentId].currency == p.rows[paymentId].currency
    ensures forall id :: id in p.rows && id != paymentId ==> r.rows[id] == p.rows[id]
  {
    if paymentId in p.rows then
      var row := p.rows[paymentId];
      Table(p.rows[paymentId := row.(status := status, message := message, bonus := bonus)], p.nextId)
    else p
  }

  /** One `update_payment_status` attempt against a store fault: a fault
      rolls back and is re-raised as is; otherwise the staged store reads
      back the new status, message and bonus on that row (if it exists),
      every other row as before, and hands out the same next id. */
  function UpdateAttempt(p: Payments, fault: Option<Error>, paymentId: int, status: string, message: string, bonus: Cents): (r: Attempt<Payments>)
    ensures r.Ok? <==> fault.None?
    ensures r.Fail? ==> r.error == fault.value
    ensures r.Ok? ==> r.value.nextId == p.nextId
    ensures r.Ok? ==> GetPaymentRecord(r.value, paymentId)
                      == if paymentId in p.rows
                         then Some(p.rows[paymentId].(status := status, message := message, bonus := bonus))
                         else None
    ensures r.Ok? ==> forall id :: id != paymentId ==> GetPaymentRecord(r.value, id) == GetPaymentRecord(p, id)
  {
    Faulted(fault, Ok(UpdatePaymentStatus(p, paymentId, status, message, bonus)))
  }

  /** `get_payment_record`: the row, or `None` for a missing id. */
  function GetPaymentRecord(p: Payments, paymentId: int): (r: Option<Payment>)
    ensures r.Some? <==> paymentId in p.rows
    ensures r.Some? ==> r.value == p.rows[paymentId] && r.value.paymentId == paymentId
  {
    if paymentId in p.rows then Some(p.rows[paymentId]) else None
  }

  /** Reading after an update sees the new status, message and bonus on the
      updated row and the old contents everywhere else. */
  lemma ReadAfterUpdate(p: Payments, paymentId: int, status: string, message: string, bonus: Cents, id: int)
    ensures GetPaymentRecord(UpdatePaymentStatus(p, paymentId, status, message, bonus), id)
         == if id == paymentId && id in p.rows
            then Some(p.rows[id].(status := status, message := message, bonus := bonus))
            else GetPaymentRecord(p, id)
  {
  }

  /** Writing the same status twice is the same as writing it once. */
  lemma UpdateIsIdempotent(p: Payments, paymentId: int, status: string, message: string, bonus: Cents)
    ensures UpdatePaymentStatus(UpdatePaymentStatus(p, paymentId, status, message, bonus), paymentId, status, message, bonus)
         == UpdatePaymentStatus(p, paymentId, status, message, bonus)
  {
  }

  /** Of two updates of the same row, the later one wins outright. */
  lemma LastUpdateWins(p: Payments, paymentId: int, s1: string, m1: string, b1: Cents, s2: string, m2: string, b2: Cents)
    ensures UpdatePaymentStatus(UpdatePaymentStatus(p, paymentId, s1, m1, b1), paymentId, s2, m2, b2)
         == UpdatePaymentStatus(p, paymentId, s2, m2, b2)
  {
  }

  /** A row carries a non-zero bonus only when its status is "success". */
  predicate BonusOnlyOnSuccess(p: Payments)
  {
    forall id :: id in p.rows && p.rows[id].bonus != 0 ==> p.rows[id].status == "success"
  }

  /** Inserting rows (bonus 0.00) and writing either "success" or a zero
      bonus keep a non-zero bonus confined to successful payments. */
  lemma WritesKeepBonusOnSuccess(p: Payments, paymentId: int, status: string, message: string, bonus: Cents)
    requires BonusOnlyOnSuccess(p)
    requires status == "success" || bonus == 0
    ensures BonusOnlyOnSuccess(UpdatePaymentStatus(p, paymentId, status, message, bonus))
  {
  }

  lemma InsertKeepsBonusOnSuccess(p: Payments, userId: int, amount: Cents, currency: string, status: string, message: string)
    requires BonusOnlyOnSuccess(p)
    ensures BonusOnlyOnSuccess(Insert(p, userId, amount, currency, status, message).store)
  {
  }
}

=== FILE: protected.dfy ===
/** The settlement coordinator: a status write protected by retry and its
    own transaction, and the two-store settlement that debits the user,
    records "success" on the payment, and only then commits the debit.

    Each store call meets an injected fault or goes through; faults are the
    only source of transient errors. A transaction is a snapshot of its
    store: a commit publishes the staged state, a rollback keeps the snapshot. */
module Protected {
  import opened Basics
  import opened Errors
  import opened Retry
  import opened UserDb
  import opened PaymentDb

  /** Both stores. */
  datatype Stores = Stores(users: Users, payments: Payments)

  /** The faults a protected status write meets: one per update attempt, one at commit. */
  datatype StatusFaults = StatusFaults(update: nat -> Option<Error>, commit: Option<Error>)

  /** The faults settlement meets: per debit attempt, in its status write, and at the user commit. */
  datatype SettleFaults = SettleFaults(debit: nat -> Option<Error>, status: StatusFaults, commit: Option<Error>)

  const StatusRetries := 3
  const StatusDelay := 0.2
  const DebitRetries := 5
  const DebitDelay := 0.5
  const Backoff := 2.0

  const SuccessStatus := "success"
  const FailedStatus := "failed"
  const SettledMessage := "Платеж успешно обработан"
  const UnhandledPrefix := "Необработанная ошибка при обновлении баланса: "

  /** The store's faults clear at attempt `n`: every earlier attempt meets a
      transient fault, attempt `n` meets none. */
  predicate ClearsAt(faults: nat -> Option<Error>, n: nat)
  {
    && (forall i :: 0 <= i < n ==> faults(i).Some? && !IsTerminal(faults(i).value))
    && faults(n).None?
  }

  /** Every one of the first `n` attempts meets a transient fault. */
  predicate AllTransient(faults: nat -> Option<Error>, n: nat)
  {
    forall i :: 0 <= i < n ==> faults(i).Some? && !IsTerminal(faults(i).value)
  }

  function UpdateCalls(p: Payments, faults: nat -> Option<Error>, paymentId: int, status: string, message: string, bonus: Cents): nat -> Attempt<Payments>
  {
    (i: nat) => UpdateAttempt(p, faults(i), paymentId, status, message, bonus)
  }

  /** `protected_update_payment_status`: up to three update attempts, then
      a commit; any error rolls the payment store back and is re-raised as is. */
  function ProtectedUpdatePaymentStatus(p: Payments, paymentId: int, status: string, message: string, faults: StatusFaults, bonus: Cents := 0): (r: Effect<Payments, ()>)
    ensures r.out.Ok? ==> r.state == UpdatePaymentStatus(p, paymentId, status, message, bonus)
    ensures r.out.Fail? ==> r.state == p
    ensures r.out.Fail? ==>
              (exists i :: 0 <= i < StatusRetries && faults.update(i) == Some(r.out.error)) || faults.commit == Some(r.out.error)
    ensures r.out.Ok? ==> faults.commit.None? && exists n :: 0 <= n < StatusRetries && ClearsAt(faults.update, n)
  {
    var t := RetryOperation(UpdateCalls(p, faults.update, paymentId, status, message, bonus), StatusRetries, StatusDelay, Backoff);
    UpdateRunClears(p, faults.update, paymentId, status, message, bonus);
    match t.outcome
    case Raised(e) =>
      assert faults.update(t.calls - 1) == Some(e);
      Effect(p, Fail(e))
    case _ =>
      match faults.commit
      case Some(e) => Effect(p, Fail(e))
      case None => Effect(UpdatePaymentStatus(p, paymentId, status, message, bonus), Ok(()))
  }

  /** An update run that returns met only retryable faults before its last
      attempt, and no fault on it. */
  lemma UpdateRunClears(p: Payments, faults: nat -> Option<Error>, paymentId: int, status: string, message: string, bonus: Cents)
    ensures var t := RetryOperation(UpdateCalls(p, faults, paymentId, status, message, bonus), StatusRetries, StatusDelay, Backoff);
            t.outcome.Returned? ==> ClearsAt(faults, t.calls - 1)
  {
    var calls := UpdateCalls(p, faults, paymentId, status, message, bonus);
    var t := RetryOperation(calls, StatusRetries, StatusDelay, Backoff);
    forall i | 0 <= i < t.calls - 1
      ensures faults(i).Some? && !IsTerminal(faults(i).value)
    {
      assert IsTransient(calls(i));
    }
  }

  /** A status write whose faults clear within three attempts and whose
      commit goes through publishes the new status, message and bonus. */
  lemma StatusWriteGoesThrough(p: Payments, paymentId: int, status: string, message: string, faults: StatusFaults, bonus: Cents, n: nat)
    requires n < StatusRetries && ClearsAt(faults.update, n) && faults.commit.None?
    ensures ProtectedUpdatePaymentStatus(p, paymentId, status, message, faults, bonus)
         == Effect(UpdatePaymentStatus(p, paymentId, status, message, bonus), Ok(()))
  {
    var calls := UpdateCalls(p, faults.update, paymentId, status, message, bonus);
    assert forall i :: 0 <= i < n ==> IsTransient(calls(i));
    SuccessAfterTransientFailures(calls, StatusRetries, StatusDelay, Backoff, n);
  }

  /** Update attempts that go through are still undone by a failing
      commit: the payment store is left as it was and the commit's error is
      re-raised. */
  lemma StatusCommitFaultFails(p: Payments, paymentId: int, status: string, message: string, faults: StatusFaults, bonus: Cents, n: nat)
    requires n < StatusRetries && ClearsAt(faults.update, n) && faults.commit.Some?
    ensures ProtectedUpdatePaymentStatus(p, paymentId, status, message, faults, bonus)
         == Effect(p, Fail(faults.commit.value))
  {
    var calls := UpdateCalls(p, faults.update, paymentId, status, message, bonus);
    assert forall i :: 0 <= i < n ==> IsTransient(calls(i));
    SuccessAfterTransientFailures(calls, StatusRetries, StatusDelay, Backoff, n);
  }

  /** A terminal update fault stops the status write at once: the payment
      store is left as it was and that error is re-raised. */
  lemma StatusTerminalFaultFails(p: Payments, paymentId: int, status: string, message: string, faults: StatusFaults, bonus: Cents, n: nat)
    requires n < StatusRetries && AllTransient(faults.update, n)
    requires faults.update(n).Some? && IsTerminal(faults.update(n).value)
    ensures ProtectedUpdatePaymentStatus(p, paymentId, status, message, faults, bonus)
         == Effect(p, Fail(faults.update(n).value))
  {
    var calls := UpdateCalls(p, faults.update, paymentId, status, message, bonus);
    assert forall i :: 0 <= i < n ==> IsTransient(calls(i));
    assert calls(n) == Fail(faults.update(n).value);
    TerminalErrorStopsAtOnce(calls, StatusRetries, StatusDelay, Backoff, n);
  }

  /** When all three update attempts fail transiently, the payment store is
      left as it was and the third error is re-raised. */
  lemma StatusWriteExhausted(p: Payments, paymentId: int, status: string, message: string, faults: StatusFaults, bonus: Cents)
    requires AllTransient(faults.update, StatusRetries)
    ensures ProtectedUpdatePaymentStatus(p, paymentId, status, message, faults, bonus)
         == Effect(p, Fail(faults.update(StatusRetries - 1).value))
  {
    var calls := UpdateCalls(p, faults.update, paymentId, status, message, bonus);
    assert forall i :: 0 <= i < StatusRetries ==> IsTransient(calls(i));
    ExhaustionReraisesLastError(calls, StatusRetries, StatusDelay, Backoff);
  }

  /** The `except (UserNotFoundError, NotEnoughMoney)` / `except Exception`
      pair of settlement: the two terminal debit errors are re-raised as is,
      everything else is wrapped in a new generic exception. */
  function Reraise(e: Error): (r: Error)
    ensures e.UserNotFoundError? || e.NotEnoughMoney? ==> r == e
    ensures !(e.UserNotFoundError? || e.NotEnoughMoney?) ==> r == Exception(UnhandledPrefix + Str(e))
  {
    var clauses := [{UserNotFoundErrorType, NotEnoughMoneyType}, {ExceptionType}];
    TerminalReraiseClause(e);
    EveryErrorIsAnException(e);
    assert Catches(clauses[1], e) by { assert ExceptionType in clauses[1]; }
    match Dispatch(e, clauses)
    case Some(0) => e
    case _ => Exception(UnhandledPrefix + Str(e))
  }

  lemma TerminalReraiseClause(e: Error)
    ensures Catches({UserNotFoundErrorType, NotEnoughMoneyType}, e) <==> e.UserNotFoundError? || e.NotEnoughMoney?
  {
    if e.UserNotFoundError? {
      assert IsInstance(e, UserNotFoundErrorType);
    } else if e.NotEnoughMoney? {
      assert IsInstance(e, NotEnoughMoneyType);
    }
  }

  function DebitCalls(users: Users, userId: int, amount: Cents, faults: nat -> Option<Error>): nat -> Attempt<Users>
  {
    (i: nat) => Faulted(faults(i), UpdateUserBalance(users, userId, amount))
  }

  /** `protected_process_transaction`: debit with five attempts; then the
      "success" status write with `bonus`; then the user commit. Every
      failure rolls the user store back; settlement itself never writes
      "failed". */
  function ProtectedProcessTransaction(s: Stores, paymentId: int, userId: int, amount: Cents, bonus: Cents, f: SettleFaults): (r: Effect<Stores, ()>)
    ensures r.out.Ok? ==> UpdateUserBalance(s.users, userId, amount).Ok?
    ensures r.out.Ok? ==> r.state.users == UpdateUserBalance(s.users, userId, amount).value
    ensures r.out.Ok? ==> r.state.payments == UpdatePaymentStatus(s.payments, paymentId, SuccessStatus, SettledMessage, bonus)
    ensures r.out.Fail? ==> r.state.users == s.users
    ensures r.state.payments == s.payments
         || r.state.payments == UpdatePaymentStatus(s.payments, paymentId, SuccessStatus, SettledMessage, bonus)
    ensures r.state.payments != s.payments ==> UpdateUserBalance(s.users, userId, amount).Ok?
    ensures var d := RetryOperation(DebitCalls(s.users, userId, amount, f.debit), DebitRetries, DebitDelay, Backoff).outcome;
            && (d.Raised? ==> r == Effect(s, Fail(Reraise(d.error))))
            && (r.out.Ok? ==> d.Returned? && r.state.users == d.value)
  {
    var debit := RetryOperation(DebitCalls(s.users, userId, amount, f.debit), DebitRetries, DebitDelay, Backoff);
    DebitOrigin(s.users, userId, amount, f.debit);
    if debit.outcome.Raised? then Effect(s, Fail(Reraise(debit.outcome.error)))
    else
      var staged := if debit.outcome.Returned? then debit.outcome.value else s.users;
      var write := ProtectedUpdatePaymentStatus(s.payments, paymentId, SuccessStatus, SettledMessage, f.status, bonus);
      if write.out.Fail? then Effect(Stores(s.users, write.state), Fail(Reraise(write.out.error)))
      else if f.commit.Some? then Effect(Stores(s.users, write.state), Fail(Reraise(f.commit.value)))
      else Effect(Stores(staged, write.state), Ok(()))
  }

  /** A debit run that returns hands back the debited store. */
  lemma DebitOrigin(users: Users, userId: int, amount: Cents, faults: nat -> Option<Error>)
    ensures var t := RetryOperation(DebitCalls(users, userId, amount, faults), DebitRetries, DebitDelay, Backoff);
            && (t.outcome.Returned? ==> UpdateUserBalance(users, userId, amount) == Ok(t.outcome.value))
            && !t.outcome.ReturnedNone?
  {
    var t := RetryOperation(DebitCalls(users, userId, amount, faults), DebitRetries, DebitDelay, Backoff);
    if t.outcome.Returned? {
      var i := t.calls - 1;
      assert DebitCalls(users, userId, amount, faults)(i) == Faulted(faults(i), UpdateUserBalance(users, userId, amount));
    }
  }


  /** When the debit is refused (unknown user, insufficient funds) at the
      first fault-free attempt, settlement re-raises that terminal error as
      is and writes no payment status. */
  lemma RefusedDebitReraised(s: Stores, paymentId: int, userId: int, amount: Cents, bonus: Cents, f: SettleFaults, n: nat)
    requires n < DebitRetries && ClearsAt(f.debit, n)
    requires UpdateUserBalance(s.users, userId, amount).Fail?
    ensures ProtectedProcessTransaction(s, paymentId, userId, amount, bonus, f)
         == Effect(s, Fail(UpdateUserBalance(s.users, userId, amount).error))
  {
    var calls := DebitCalls(s.users, userId, amount, f.debit);
    assert forall i :: 0 <= i < n ==> IsTransient(calls(i));
    TerminalErrorStopsAtOnce(calls, DebitRetries, DebitDelay, Backoff, n);
  }

  /** When every debit attempt meets a transient fault, settlement rolls
      back and raises a new generic exception wrapping the last fault. */
  lemma ExhaustedDebitWrapped(s: Stores, paymentId: int, userId: int, amount: Cents, bonus: Cents, f: SettleFaults)
    requires AllTransient(f.debit, DebitRetries)
    ensures ProtectedProcessTransaction(s, paymentId, userId, amount, bonus, f)
         == Effect(s, Fail(Exception(UnhandledPrefix + Str(f.debit(DebitRetries - 1).value))))
  {
    var calls := DebitCalls(s.users, userId, amount, f.debit);
    assert forall i :: 0 <= i < DebitRetries ==> IsTransient(calls(i));
    ExhaustionReraisesLastError(calls, DebitRetries, DebitDelay, Backoff);
    TerminalFamily(f.debit(DebitRetries - 1).value);
  }

  /** With the debit accepted, the payment store holds "success" exactly
      when the status write went through; the user store commits only after
      that; a failed status write rolls the debit back. */
  lemma AcceptedDebitOrdering(s: Stores, paymentId: int, userId: int, amount: Cents, bonus: Cents, f: SettleFaults, n: nat)
    requires n < DebitRetries && ClearsAt(f.debit, n)
    requires UpdateUserBalance(s.users, userId, amount).Ok?
    ensures var write := ProtectedUpdatePaymentStatus(s.payments, paymentId, SuccessStatus, SettledMessage, f.status, bonus);
            var r := ProtectedProcessTransaction(s, paymentId, userId, amount, bonus, f);
            && (write.out.Fail? ==> r == Effect(s, Fail(Reraise(write.out.error))))
            && (write.out.Ok? && f.commit.Some? ==>
                  r == Effect(Stores(s.users, write.state), Fail(Reraise(f.commit.value))))
            && (write.out.Ok? && f.commit.None? ==>
                  r == Effect(Stores(UpdateUserBalance(s.users, userId, amount).value, write.state), Ok(())))
  {
    var calls := DebitCalls(s.users, userId, amount, f.debit);
    assert forall i :: 0 <= i < n ==> IsTransient(calls(i));
    SuccessAfterTransientFailures(calls, DebitRetries, DebitDelay, Backoff, n);
  }

  /** Settlement raises only the two terminal debit errors, as they are, or
      a generic exception whose message starts with the wrapping prefix; and
      no balance goes negative, whatever happens. */
  lemma SettlementOutcomeShape(s: Stores, paymentId: int, userId: int, amount: Cents, bonus: Cents, f: SettleFaults)
    ensures var r := ProtectedProcessTransaction(s, paymentId, userId, amount, bonus, f);
            r.out.Fail? ==> r.out.error.UserNotFoundError? || r.out.error.NotEnoughMoney?
                            || (r.out.error.Exception? && UnhandledPrefix <= r.out.error.message)
    ensures Solvent(s.users) ==> Solvent(ProtectedProcessTransaction(s, paymentId, userId, amount, bonus, f).state.users)
  {
    var r := ProtectedProcessTransaction(s, paymentId, userId, amount, bonus, f);
    if r.out.Fail? {
      var e := r.out.error;
      ReraiseShape(e);
      var debit := RetryOperation(DebitCalls(s.users, userId, amount, f.debit), DebitRetries, DebitDelay, Backoff);
      var write := ProtectedUpdatePaymentStatus(s.payments, paymentId, SuccessStatus, SettledMessage, f.status, bonus);
      if debit.outcome.Raised? {
        ReraiseShape(debit.outcome.error);
      } else if write.out.Fail? {
        ReraiseShape(write.out.error);
      } else {
        ReraiseShape(f.commit.value);
      }
    }
    if Solvent(s.users) {
      DebitPreservesInvariants(s.users, userId, amount);
    }
  }

  lemma ReraiseShape(e: Error)
    ensures var r := Reraise(e);
            r.UserNotFoundError? || r.NotEnoughMoney? || (r.Exception? && UnhandledPrefix <= r.message)
  {
  }
}

=== FILE: retry.dfy ===
/** The retry executor: bounded retry with exponential backoff
    (`retry_operation`) and unbounded retry with a capped delay
    (`retry_until_success_service`).

    An operation is an oracle: `call(i)` is what its i-th call (counting from
    0) returns or raises. Sleeping is recorded, not performed: a run reports
    the delays it slept, in order. */
module Retry {
  import opened Basics
  import opened Errors
  import opened Services

  /** What `retry_operation` hands back: the operation's value, Python's
      `None` (when no attempt was allowed), or a raised error. */
  datatype Outcome<+T> = Returned(value: T) | ReturnedNone | Raised(error: Error)

  /** A bounded-retry run: its outcome, how many times the operation was
      called, and the delays slept between calls. */
  datatype Trace<+T> = Trace(outcome: Outcome<T>, calls: nat, sleeps: seq<real>)

  /** A failed call that is worth retrying. */
  predicate IsTransient<T>(a: Attempt<T>)
  {
    a.Fail? && !IsTerminal(a.error)
  }

  /** The delays `delay, delay*backoff, delay*backoff^2, ...`, `n` of them. */
  function Schedule(delay: real, backoff: real, n: nat): (s: seq<real>)
    decreases n
    ensures |s| == n
  {
    if n == 0 then [] else [delay] + Schedule(delay * backoff, backoff, n - 1)
  }

  /** The k-th sleep of a bounded retry lasts `delay * backoff^k`. */
  lemma {:induction false} ScheduleIsGeometric(delay: real, backoff: real, n: nat, k: nat)
    requires k < n
    decreases k
    ensures Schedule(delay, backoff, n)[k] == delay * Pow(backoff, k)
  {
    if k > 0 {
      ScheduleIsGeometric(delay * backoff, backoff, n - 1, k - 1);
      assert Pow(backoff, k) == backoff * Pow(backoff, k - 1);
      assert (delay * backoff) * Pow(backoff, k - 1) == delay * (backoff * Pow(backoff, k - 1));
    }
  }

  /** The loop of `retry_operation` from attempt number `attempt` on, with
      `delay` the delay it would sleep after a transient failure now. */
  function Attempts<T>(call: nat -> Attempt<T>, retries: int, attempt: nat, delay: real, backoff: real): (t: Trace<T>)
    requires attempt < retries
    decreases retries - attempt
    ensures 1 <= t.calls <= retries - attempt
    ensures t.sleeps == Schedule(delay, backoff, t.calls - 1)
    ensures forall i :: attempt <= i < attempt + t.calls - 1 ==> IsTransient(call(i))
    ensures !t.outcome.ReturnedNone?
    ensures t.outcome.Returned? ==> call(attempt + t.calls - 1) == Ok(t.outcome.value)
    ensures t.outcome.Raised? ==> call(attempt + t.calls - 1) == Fail(t.outcome.error)
    ensures t.outcome.Raised? ==> IsTerminal(t.outcome.error) || attempt + t.calls == retries
  {
    match call(attempt)
    case Ok(v) => Trace(Returned(v), 1, [])
    case Fail(e) =>
      if IsTerminal(e) || attempt + 1 >= retries then Trace(Raised(e), 1, [])
      else
        var rest := Attempts(call, retries, attempt + 1, delay * backoff, backoff);
        Trace(rest.outcome, rest.calls + 1, [delay] + rest.sleeps)
  }

  /** `retry_operation(call, retries, delay, backoff)`: the first call that
      does not fail transiently decides the outcome (its value is returned,
      its terminal error re-raised unchanged); after `retries` transient
      failures the last error is re-raised unchanged; with no budget the
      operation is never called and `None` comes back. */
  function RetryOperation<T>(call: nat -> Attempt<T>, retries: int, delay: real, backoff: real): (t: Trace<T>)
    ensures retries <= 0 ==> t == Trace(ReturnedNone, 0, [])
    ensures retries > 0 ==> 1 <= t.calls <= retries && !t.outcome.ReturnedNone?
    ensures t.sleeps == Schedule(delay, backoff, if t.calls == 0 then 0 else t.calls - 1)
    ensures forall i :: 0 <= i < t.calls - 1 ==> IsTransient(call(i))
    ensures t.outcome.Returned? ==> call(t.calls - 1) == Ok(t.outcome.value)
    ensures t.outcome.Raised? ==> call(t.calls - 1) == Fail(t.outcome.error)
    ensures t.outcome.Raised? ==> IsTerminal(t.outcome.error) || t.calls == retries
  {
    if retries <= 0 then Trace(ReturnedNone, 0, [])
    else Attempts(call, retries, 0, delay, backoff)
  }

  /** With `n` transient failures followed by a success, and `n` below the
      budget, the success's value comes back after exactly `n + 1` calls and
      `n` sleeps. */
  lemma SuccessAfterTransientFailures<T>(call: nat -> Attempt<T>, retries: int, delay: real, backoff: real, n: nat)
    requires n < retries
    requires forall i :: 0 <= i < n ==> IsTransient(call(i))
    requires call(n).Ok?
    ensures RetryOperation(call, retries, delay, backoff) == Trace(Returned(call(n).value), n + 1, Schedule(delay, backoff, n))
  {
    var t := RetryOperation(call, retries, delay, backoff);
    DecidingCall(call, retries, delay, backoff, n);
  }

  /** A terminal error on any attempt (after only transient failures)
      propagates unchanged at once: no further call, no further sleep. */
  lemma TerminalErrorStopsAtOnce<T>(call: nat -> Attempt<T>, retries: int, delay: real, backoff: real, n: nat)
    requires n < retries
    requires forall i :: 0 <= i < n ==> IsTransient(call(i))
    requires call(n).Fail? && IsTerminal(call(n).error)
    ensures RetryOperation(call, retries, delay, backoff) == Trace(Raised(call(n).error), n + 1, Schedule(delay, backoff, n))
  {
    DecidingCall(call, retries, delay, backoff, n);
  }

  /** When every call in the budget fails transiently there are exactly
      `retries` calls and `retries - 1` sleeps, and the last error is
      re-raised unchanged. */
  lemma ExhaustionReraisesLastError<T>(call: nat -> Attempt<T>, retries: int, delay: real, backoff: real)
    requires retries >= 1
    requires forall i :: 0 <= i < retries ==> IsTransient(call(i))
    ensures call(retries - 1).Fail?
    ensures RetryOperation(call, retries, delay, backoff)
         == Trace(Raised(call(retries - 1).error), retries, Schedule(delay, backoff, retries - 1))
  {
    var t := RetryOperation(call, retries, delay, backoff);
    assert IsTransient(call(t.calls - 1));
    assert t.calls == retries;
  }

  /** The call that decides a run is the first one that does not fail transiently. */
  lemma DecidingCall<T>(call: nat -> Attempt<T>, retries: int, delay: real, backoff: real, n: nat)
    requires n < retries
    requires forall i :: 0 <= i < n ==> IsTransient(call(i))
    requires !IsTransient(call(n))
    ensures RetryOperation(call, retries, delay, backoff).calls == n + 1
    ensures RetryOperation(call, retries, delay, backoff).outcome
         == if call(n).Ok? then Returned(call(n).value) else Raised(call(n).error)
    ensures RetryOperation(call, retries, delay, backoff).sleeps == Schedule(delay, backoff, n)
  {
    var t := RetryOperation(call, retries, delay, backoff);
    if t.calls - 1 < n {
      assert false;
    }
    if t.calls - 1 > n {
      assert false;
    }
  }

  /** The loop of `retry_operation`, statement by statement, computes the
      same run as the recursive definition. */
  method RetryLoop<T>(call: nat -> Attempt<T>, retries: int, delay: real, backoff: real)
    returns (outcome: Outcome<T>, calls: nat, sleeps: seq<real>)
    ensures Trace(outcome, calls, sleeps) == RetryOperation(call, retries, delay, backoff)
  {
    var attempt: nat := 0;
    var currentDelay := delay;
    calls := 0;
    sleeps := [];
    while attempt < retries
      invariant calls == attempt
      invariant attempt < retries ==>
        var rest := Attempts(call, retries, attempt, currentDelay, backoff);
        RetryOperation(call, retries, delay, backoff) == Trace(rest.outcome, attempt + rest.calls, sleeps + rest.sleeps)
      invariant attempt > 0 ==> attempt < retries
      invariant attempt == 0 ==> sleeps == []
      decreases retries - attempt
    {
      var a := call(attempt);
      calls := calls + 1;
      match a {
        case Ok(v) =>
          outcome := Returned(v);
          return;
        case Fail(e) =>
          if IsTerminal(e) {
            outcome := Raised(e);
            return;
          }
          attempt := attempt + 1;
          if attempt >= retries {
            outcome := Raised(e);
            return;
          }
          ghost var rest := Attempts(call, retries, attempt, currentDelay * backoff, backoff);
          assert sleeps + ([currentDelay] + rest.sleeps) == (sleeps + [currentDelay]) + rest.sleeps;
          sleeps := sleeps + [currentDelay];
          currentDelay := currentDelay * backoff;
      }
    }
    outcome := ReturnedNone;
  }

  /** A call of the unbounded retry that ends it: a reply whose status is "success". */
  predicate IsSuccess(a: Attempt<Reply>)
  {
    a.Ok? && IsSuccessReply(a.value)
  }

  /** The delay after one more unsuccessful call: `min(delay * backoff, max_delay)`. */
  function NextDelay(delay: real, backoff: real, maxDelay: real): (r: real)
    ensures r <= maxDelay
  {
    Min(delay * backoff, maxDelay)
  }

  /** The delays of the unbounded retry, `n` of them: `delay` first, then
      each one grown from the previous by `NextDelay`. */
  function CappedSchedule(delay: real, backoff: real, maxDelay: real, n: nat): (s: seq<real>)
    decreases n
    ensures |s| == n
    ensures n > 0 ==> s[0] == delay
    ensures forall k :: 0 < k < n ==> s[k] == NextDelay(s[k - 1], backoff, maxDelay)
  {
    if n == 0 then []
    else
      var rest := CappedSchedule(NextDelay(delay, backoff, maxDelay), backoff, maxDelay, n - 1);
      [delay] + rest
  }

  /** An unbounded run observed over a finite prefix of calls: either it
      returned a reply after `calls` calls, or it is still retrying. */
  datatype Until =
    | Succeeded(reply: Reply, calls: nat, sleeps: seq<real>)
    | StillRetrying(sleeps: seq<real>)

  /** `retry_until_success_service` over the outcomes `outs` of its first
      `|outs|` calls, with `delay` the delay it would sleep next. A raised
      error and a reply without status "success" are handled alike: sleep,
      grow the delay to `min(delay * backoff, max_delay)`, call again. */
  function RetryUntilSuccess(outs: seq<Attempt<Reply>>, delay: real, backoff: real, maxDelay: real): (r: Until)
    decreases |outs|
    ensures r.Succeeded? ==> 1 <= r.calls <= |outs| && outs[r.calls - 1] == Ok(r.reply)
    ensures r.Succeeded? ==> IsSuccessReply(r.reply) && |r.sleeps| == r.calls - 1
    ensures r.Succeeded? ==> forall i :: 0 <= i < r.calls - 1 ==> !IsSuccess(outs[i])
    ensures r.StillRetrying? ==> |r.sleeps| == |outs|
    ensures r.StillRetrying? ==> forall i :: 0 <= i < |outs| ==> !IsSuccess(outs[i])
    ensures r.sleeps == CappedSchedule(delay, backoff, maxDelay, |r.sleeps|)
  {
    if |outs| == 0 then StillRetrying([])
    else if IsSuccess(outs[0]) then Succeeded(outs[0].value, 1, [])
    else
      match RetryUntilSuccess(outs[1..], NextDelay(delay, backoff, maxDelay), backoff, maxDelay)
      case Succeeded(reply, n, s) => Succeeded(reply, n + 1, [delay] + s)
      case StillRetrying(s) => StillRetrying([delay] + s)
  }

  /** There is no attempt limit: however many failures come first, the first
      successful reply is returned, and it is returned exactly. */
  lemma FirstSuccessIsReturned(outs: seq<Attempt<Reply>>, delay: real, backoff: real, maxDelay: real, n: nat)
    requires n < |outs| && IsSuccess(outs[n])
    requires forall i :: 0 <= i < n ==> !IsSuccess(outs[i])
    ensures RetryUntilSuccess(outs, delay, backoff, maxDelay).Succeeded?
    ensures RetryUntilSuccess(outs, delay, backoff, maxDelay).reply == outs[n].value
    ensures RetryUntilSuccess(outs, delay, backoff, maxDelay).calls == n + 1
  {
    var r := RetryUntilSuccess(outs, delay, backoff, maxDelay);
    if r.StillRetrying? {
      assert false;
    } else if r.calls - 1 > n {
      assert false;
    } else if r.calls - 1 < n {
      assert false;
    }
  }

  /** A raised error and a returned non-success reply are interchangeable:
      two runs that agree on which calls succeeded, and on the successful
      replies, behave identically. */
  lemma {:induction false} FailureKindIrrelevant(outs: seq<Attempt<Reply>>, outs': seq<Attempt<Reply>>, delay: real, backoff: real, maxDelay: real)
    requires |outs| == |outs'|
    requires forall i :: 0 <= i < |outs| ==> (IsSuccess(outs[i]) <==> IsSuccess(outs'[i]))
    requires forall i :: 0 <= i < |outs| && IsSuccess(outs[i]) ==> outs[i] == outs'[i]
    ensures RetryUntilSuccess(outs, delay, backoff, maxDelay) == RetryUntilSuccess(outs', delay, backoff, maxDelay)
  {
    if |outs| > 0 && !IsSuccess(outs[0]) {
      assert !IsSuccess(outs'[0]);
      FailureKindIrrelevant(outs[1..], outs'[1..], NextDelay(delay, backoff, maxDelay), backoff, maxDelay);
    }
  }

  /** No sleep ever exceeds `max(initial delay, max_delay)`. */
  lemma SleepsAreCapped(outs: seq<Attempt<Reply>>, delay: real, backoff: real, maxDelay: real)
    ensures forall k :: 0 <= k < |RetryUntilSuccess(outs, delay, backoff, maxDelay).sleeps| ==>
              RetryUntilSuccess(outs, delay, backoff, maxDelay).sleeps[k] <= Max(delay, maxDelay)
  {
    var s := RetryUntilSuccess(outs, delay, backoff, maxDelay).sleeps;
    forall k | 0 <= k < |s|
      ensures s[k] <= Max(delay, maxDelay)
    {
      if k > 0 {
        assert s[k] == NextDelay(s[k - 1], backoff, maxDelay);
      }
    }
  }
}

=== FILE: scenarios.dfy ===
/** End-to-end runs of version 2 on concrete stores, composed from the
    handler and the finalizer: a payable user, a user short of money, a
    loyalty service that recovers within the request-time budget, and one
    that only answers during deferred reconciliation. Amounts are cents. */
module Scenarios {
  import opened Basics
  import opened Errors
  import opened Services
  import opened Retry
  import opened UserDb
  import opened PaymentDb
  import opened Protected
  import opened Background
  import opened Http
  import opened PaymentsV2

  function NoFaults(): nat -> Option<Error>
  {
    (i: nat) => None
  }

  function Calm(): StatusFaults
  {
    StatusFaults(NoFaults(), None)
  }

  function CalmSettlement(): SettleFaults
  {
    SettleFaults(NoFaults(), Calm(), None)
  }

  /** A loyalty service that fails `failures` times and then grants `bonus`. */
  function LoyaltyAfter(failures: nat, bonus: Cents): nat -> Attempt<Reply>
  {
    (i: nat) => if i < failures then Fail(Exception("loyalty unavailable")) else Ok(Reply(Some("success"), Some(bonus)))
  }

  /** A store with one user and no payments yet. */
  function OneUser(balance: Cents): Stores
  {
    Stores(map[1 := User(1, balance)], Table(map[], 1))
  }

  function Calls(loyalty: nat -> Attempt<Reply>): World
  {
    World(NoFaults(), NoFaults(), loyalty, Fail(Exception("notification unavailable")), Calm())
  }

  /** A user holding 1000.00 pays 100.00 and the loyalty service grants
      10.00 at request time: the payment is accepted as payment 1, and once
      finalized the balance is 900.00 and the payment is "success" with
      bonus 10.00; the user is notified of the success. */
  lemma PayableUserSettles()
    ensures var h := CreatePaymentEndpoint(OneUser(100000), Request(1, 10000, "USD"), Calls(LoyaltyAfter(0, 1000)));
            && h.response == Accepted(1, ProcessingStatus, ProcessingMessage)
            && h.task == Some(Finalize(1, 1, 10000, "USD", 1000))
            && var run := FinalizePayment(h.stores, 1, 1, 10000, "USD", 1000,
                                          FinalizeWorld(CalmSettlement(), Ok(Reply(None, None)), [], Calm(), Calm()));
               && run.state == Finished
               && run.notified == [SuccessStatus]
               && run.stores.users == map[1 := User(1, 90000)]
               && GetPaymentRecord(run.stores.payments, 1) == Some(Payment(1, 1, 10000, "USD", SuccessStatus, 1000, SettledMessage))
  {
    var s := OneUser(100000);
    var req := Request(1, 10000, "USD");
    var w := Calls(LoyaltyAfter(0, 1000));
    PayableUserAccepted(s, req, w, 0, 0);
    assert EstimatedBonus(w.loyalty) == 1000;
    var h := CreatePaymentEndpoint(s, req, w);
    assert h.stores == AcceptedStores();
    GivenBonusSettles(h.stores, FinalizeWorld(CalmSettlement(), Ok(Reply(None, None)), [], Calm(), Calm()));
  }

  /** A user holding 50.00 asks to pay 100.00: the request is refused with
      404, the new payment is left with the status "field", the balance
      stays 50.00 and nothing is scheduled. */
  lemma PoorUserRefused()
    ensures var h := CreatePaymentEndpoint(OneUser(5000), Request(1, 10000, "USD"), Calls(LoyaltyAfter(0, 1000)));
            && h.response == Rejected(404, UserProblemDetail)
            && h.task == None
            && h.stores.users == map[1 := User(1, 5000)]
            && GetPaymentRecord(h.stores.payments, 1).Some?
            && GetPaymentRecord(h.stores.payments, 1).value.status == RefusedStatus
            && GetPaymentRecord(h.stores.payments, 1).value.bonus == 0
  {
    var s := OneUser(5000);
    var req := Request(1, 10000, "USD");
    RefusedUserMarksRow(s, req, Calls(LoyaltyAfter(0, 1000)), 0, 0, 0);
  }

  /** A loyalty service that fails twice and then grants 7.00 is still
      within the request-time budget of three calls, so 7.00 is handed to
      the finalizer. */
  lemma LoyaltyRecoversInBudget()
    ensures CreatePaymentEndpoint(OneUser(100000), Request(1, 10000, "USD"), Calls(LoyaltyAfter(2, 700))).task
         == Some(Finalize(1, 1, 10000, "USD", 700))
  {
    var s := OneUser(100000);
    var req := Request(1, 10000, "USD");
    var w := Calls(LoyaltyAfter(2, 700));
    PayableUserAccepted(s, req, w, 0, 0);
    assert forall i :: 0 <= i < 2 ==> IsTransient(w.loyalty(i));
    SuccessAfterTransientFailures(w.loyalty, LoyaltyRetries, Delay, Backoff, 2);
  }

  /** A loyalty service that fails three times at request time leaves an
      estimate of 0.00 even though its fourth answer would have granted 7.00. */
  lemma LoyaltyBudgetSpent()
    ensures CreatePaymentEndpoint(OneUser(100000), Request(1, 10000, "USD"), Calls(LoyaltyAfter(3, 700))).task
         == Some(Finalize(1, 1, 10000, "USD", 0))
  {
    var s := OneUser(100000);
    var req := Request(1, 10000, "USD");
    var w := Calls(LoyaltyAfter(3, 700));
    PayableUserAccepted(s, req, w, 0, 0);
    assert forall i :: 0 <= i < LoyaltyRetries ==> IsTransient(w.loyalty(i));
    ExhaustionReraisesLastError(w.loyalty, LoyaltyRetries, Delay, Backoff);
  }

  /** The stores right after that request was accepted. */
  function AcceptedStores(): Stores
  {
    Stores(map[1 := User(1, 100000)],
           Table(map[1 := Payment(1, 1, 10000, "USD", ProcessingStatus, 0, ProcessingMessage)], 2))
  }

  /** Finalizing the accepted payment with a 10.00 estimate debits 100.00,
      records "success" with that bonus and notifies the user. The inputs
      are parameters fixed by the requires, so that the proof works on names
      rather than on unfolded literals. */
  lemma GivenBonusSettles(s: Stores, w: FinalizeWorld)
    requires s == AcceptedStores()
    requires w == FinalizeWorld(CalmSettlement(), Ok(Reply(None, None)), [], Calm(), Calm())
    ensures var run := FinalizePayment(s, 1, 1, 10000, "USD", 1000, w);
            && run.state == Finished
            && run.notified == [SuccessStatus]
            && run.stores.users == map[1 := User(1, 90000)]
            && GetPaymentRecord(run.stores.payments, 1) == Some(Payment(1, 1, 10000, "USD", SuccessStatus, 1000, SettledMessage))
  {
    assert s.users[1 := User(1, 90000)] == map[1 := User(1, 90000)];
    assert UpdateUserBalance(s.users, 1, 10000) == Ok(map[1 := User(1, 90000)]);
    AcceptedDebitOrdering(s, 1, 1, 10000, 1000, CalmSettlement(), 0);
    StatusWriteGoesThrough(s.payments, 1, SuccessStatus, SettledMessage, Calm(), 1000, 0);
  }

  /** The finalizer's loyalty calls: an error, a reply whose status is not
      "success" (ignored, although it names a bonus), then 7.00. */
  function LateLoyalty(): seq<Attempt<Reply>>
  {
    [Fail(Exception("loyalty unavailable")), Ok(Reply(Some("failure"), Some(300))), Ok(Reply(Some("success"), Some(700)))]
  }

  /** Settling that payment with a 0.00 estimate debits 100.00 and records "success". */
  lemma AcceptedPaymentSettles()
    ensures ProtectedProcessTransaction(AcceptedStores(), 1, 1, 10000, 0, CalmSettlement())
         == Effect(Stores(map[1 := User(1, 90000)],
                          UpdatePaymentStatus(AcceptedStores().payments, 1, SuccessStatus, SettledMessage, 0)),
                   Ok(()))
  {
    var s := AcceptedStores();
    assert s.users[1 := User(1, 90000)] == map[1 := User(1, 90000)];
    assert UpdateUserBalance(s.users, 1, 10000) == Ok(map[1 := User(1, 90000)]);
    AcceptedDebitOrdering(s, 1, 1, 10000, 0, CalmSettlement(), 0);
    StatusWriteGoesThrough(s.payments, 1, SuccessStatus, SettledMessage, Calm(), 0, 0);
  }

  /** Of the finalizer's loyalty answers, only the third counts as a
      success, and it grants 7.00. */
  lemma LateLoyaltyAnswersThird()
    ensures !IsSuccess(LateLoyalty()[0]) && !IsSuccess(LateLoyalty()[1]) && IsSuccess(LateLoyalty()[2])
    ensures BonusOf(LateLoyalty()[2].value) == 700
  {
  }

  /** Finalizing with that 0.00 estimate debits the user and records
      "success"; when the unbounded retry finally gets a successful reply,
      its 7.00 is written onto the payment. The stores and the finalizer's
      world are parameters fixed by the requires, so that the proof works
      on names rather than on unfolded literals. */
  lemma DeferredBonusArrives(s: Stores, w: FinalizeWorld)
    requires s == AcceptedStores()
    requires w == FinalizeWorld(CalmSettlement(), Ok(Reply(None, None)), LateLoyalty(), Calm(), Calm())
    ensures var run := FinalizePayment(s, 1, 1, 10000, "USD", 0, w);
            && run.state == Finished
            && run.notified == [SuccessStatus]
            && run.stores.users == map[1 := User(1, 90000)]
            && GetPaymentRecord(run.stores.payments, 1) == Some(Payment(1, 1, 10000, "USD", SuccessStatus, 700, BonusMessage))
  {
    AcceptedPaymentSettles();
    LateLoyaltyAnswersThird();
    var settled := ProtectedProcessTransaction(s, 1, 1, 10000, 0, CalmSettlement()).state;
    StatusWriteGoesThrough(settled.payments, 1, SuccessStatus, BonusMessage, Calm(), 700, 0);
    DeferredBonusReconciled(s, 1, 1, 10000, "USD", w, 2);
  }
}

=== FILE: services.dfy ===
/** The JSON replies of the two remote services (loyalty and notification),
    reduced to the two keys the settlement code reads. */
module Services {
  import opened Basics

  /** A reply body: its `"status"` key and, for the loyalty service, its
      `"bonus"` key in cents; either key may be absent. */
  datatype Reply = Reply(status: Option<string>, bonus: Option<int>)

  /** `reply.get("status") == "success"`. */
  predicate IsSuccessReply(reply: Reply)
  {
    reply.status == Some("success")
  }

  /** `Decimal(reply.get("bonus", 0))`: the bonus a reply carries, zero when absent. */
  function BonusOf(reply: Reply): (cents: int)
    ensures reply.bonus.None? ==> cents == 0
    ensures reply.bonus.Some? ==> cents == reply.bonus.value
  {
    reply.bonus.GetOr(0)
  }
}

=== FILE: user_db.dfy ===
/** The user store: one balance per user, in integer cents (the column is
    `DECIMAL(10,2)`). A store is a map from `user_id` to the user's row. */
module UserDb {
  import opened Basics
  import opened Errors

  datatype User = User(userId: int, balance: Cents)

  type Users = map<int, User>

  /** Every row sits under its own `user_id`. */
  predicate KeyedById(users: Users)
  {
    forall id :: id in users ==> users[id].userId == id
  }

  /** No balance is negative. */
  predicate Solvent(users: Users)
  {
    forall id :: id in users ==> users[id].balance >= 0
  }

  function NotFoundMessage(userId: int): string
  {
    "User with id " + IntToString(userId) + " not found"
  }

  function NoMoneyMessage(userId: int): string
  {
    "User with id " + IntToString(userId) + " has not enough money"
  }

  /** `get_user`: the user's row, or `UserNotFoundError` when there is none. */
  function GetUser(users: Users, userId: int): (r: Attempt<User>)
    ensures r.Ok? <==> userId in users
    ensures r.Ok? ==> r.value == users[userId]
    ensures r.Fail? ==> r.error == UserNotFoundError(NotFoundMessage(userId)) && IsTerminal(r.error)
  {
    if userId in users then Ok(users[userId]) else Fail(UserNotFoundError(NotFoundMessage(userId)))
  }

  /** `update_user_balance`: the store after debiting `amount` from the
      user, or the terminal error that refuses the debit. A refused debit
      changes nothing; an accepted one changes only this user's balance. */
  function UpdateUserBalance(users: Users, userId: int, amount: Cents): (r: Attempt<Users>)
    ensures r.Ok? <==> userId in users && users[userId].balance >= amount
    ensures r.Ok? ==> r.value.Keys == users.Keys
    ensures r.Ok? ==> r.value[userId] == users[userId].(balance := users[userId].balance - amount)
    ensures r.Ok? ==> r.value[userId].balance >= 0
    ensures r.Ok? ==> forall id :: id in users && id != userId ==> r.value[id] == users[id]
    ensures r.Fail? ==> IsTerminal(r.error)
    ensures r.Fail? && userId !in users ==> r.error == UserNotFoundError(NotFoundMessage(userId))
    ensures r.Fail? && userId in users ==> r.error == NotEnoughMoney(NoMoneyMessage(userId))
  {
    match GetUser(users, userId)
    case Fail(e) => Fail(e)
    case Ok(user) =>
      var newBalance := user.balance - amount;
      if newBalance < 0 then Fail(NotEnoughMoney(NoMoneyMessage(userId)))
      else Ok(users[userId := user.(balance := newBalance)])
  }

  /** `check_user_data`: `True` when the user exists and can pay `amount`,
      otherwise the terminal error. It only reads the store. */
  function CheckUserData(users: Users, userId: int, amount: Cents): (r: Attempt<bool>)
    ensures r.Ok? <==> userId in users && users[userId].balance >= amount
    ensures r.Ok? ==> r.value
    ensures r.Fail? && userId !in users ==> r.error == UserNotFoundError(NotFoundMessage(userId))
    ensures r.Fail? && userId in users ==> r.error == NotEnoughMoney(NoMoneyMessage(userId))
  {
    match GetUser(users, userId)
    case Fail(e) => Fail(e)
    case Ok(user) =>
      if user.balance < amount then Fail(NotEnoughMoney(NoMoneyMessage(userId))) else Ok(true)
  }

  /** The check passes on a store exactly when the debit would go through on
      it, and when it does not, both raise the same error. */
  lemma CheckAgreesWithDebit(users: Users, userId: int, amount: Cents)
    ensures CheckUserData(users, userId, amount).Ok? <==> UpdateUserBalance(users, userId, amount).Ok?
    ensures CheckUserData(users, userId, amount).Fail? ==>
              CheckUserData(users, userId, amount).error == UpdateUserBalance(users, userId, amount).error
  {
  }

  /** A debit keeps every balance non-negative and every row under its own key. */
  lemma DebitPreservesInvariants(users: Users, userId: int, amount: Cents)
    ensures Solvent(users) && UpdateUserBalance(users, userId, amount).Ok? ==>
              Solvent(UpdateUserBalance(users, userId, amount).value)
    ensures KeyedById(users) && UpdateUserBalance(users, userId, amount).Ok? ==>
              KeyedById(UpdateUserBalance(users, userId, amount).value)
  {
  }

  /** Both the debit and the check begin with `get_user`: a missing user
      fails both with the lookup's own error, and for a present user each
      is decided by the balance the lookup returned. */
  lemma LookupDecidesDebitAndCheck(users: Users, userId: int, amount: Cents)
    ensures GetUser(users, userId).Fail? ==>
              && UpdateUserBalance(users, userId, amount) == Fail(GetUser(users, userId).error)
              && CheckUserData(users, userId, amount) == Fail(GetUser(users, userId).error)
    ensures GetUser(users, userId).Ok? ==>
              && (UpdateUserBalance(users, userId, amount).Ok? <==> GetUser(users, userId).value.balance - amount >= 0)
              && (CheckUserData(users, userId, amount).Ok? <==> GetUser(users, userId).value.balance >= amount)
  {
  }
}
